=== FILE: README.md ===
# G4Catchall core in Dafny

G4Catchall searches nucleotide sequences for G-quadruplex-forming stretches.
It does this in four steps:

1. It builds a regular expression from its options: four G-tracts separated by three loops, each tract or loop with optional imperfect, two-guanine or extreme alternatives.
2. It translates that expression base by base to search the reverse strand.
3. It folds the engine's matches into a list of candidates. Overlapping matches are merged, and each candidate is scored with a modified G4Hunter score and kept only if the score reaches a threshold.
4. It sorts the list by record id, start, end and length.

This project models these steps as pure Dafny functions over immutable data and proves what each step promises.

The modules follow the structure of `G4Catchall.py`:

- `Wrappers` (wrappers.dfy): `Option`, and a `Result` whose failures are the three runtime errors the script can raise inside the core:
  - a `KeyError` from the complement table;
  - a `ZeroDivisionError` when an empty sequence is scored;
  - the `NameError` of an unbound loop variable.
- `Complement` (complement.dfy): the 30-letter IUPAC reverse complement, and the `actguACTGU → tgacaTGACA` translation that derives the reverse pattern.
- `G4Hunter` (g4hunter.dfy): the scorer.
  - `G4HScore` mirrors the script's nested loops, including the rewrite of the previous entry and the swallowed `IndexError`.
  - It is proved equal to `Score`, a run-by-run reference definition.
- `Pattern` (pattern.dfy): flag derivation, the tract and loop alternatives, the seven-slot assembly, the optional flanks, and the reverse pattern.
- `Merger` (merger.dfy): one step of the forward and reverse match loops, and the fold over a strand's matches.
- `TableSort` (sort.dfy): `sort_table`, one stable insertion sort per column, applied from the last column to the first.
- `Pipeline` (pipeline.dfy): the loop over records, the reverse-strand cap check on the leftover loop variable, and the final sort.

## Model

| member | source | states |
|---|---|---|
| Complement.ComplementBaseInvolution | G4Catchall.py:338-340 | the table pairs every key with a key whose complement is the original; exactly N, W, S (either case) are their own complements |
| Complement.ComplementBase | G4Catchall.py:338-340 | each of the table's 30 keys is mapped to a key of the table, by the pairs the two strings line up |
| Complement.ReverseComplement | G4Catchall.py:337-341 | the result has the input's length, and position i holds the complement of the input's position \|s\|-1-i; defined only on the table's 30 letters |
| Complement.ReverseComplementInvolution | G4Catchall.py:337-341 | the reverse complement stays inside the table and applying it twice gives back the input |
| Complement.TryReverseComplement | G4Catchall.py:337-341 | succeeds exactly when every character is in the table, and then equals `ReverseComplement`; otherwise fails with a KeyError naming a character of the input that is outside the table |
| Complement.TranslateChar | G4Catchall.py:311-316 | a character outside `actguACTGU` passes through; every character inside is changed |
| Complement.Translate | G4Catchall.py:311-316 | the translated pattern is as long as the original, each position holding `TranslateChar` of the original's character (with `TranslateAt`) |
| Complement.TranslateAt | G4Catchall.py:316 | the translated string holds, at each position, the translation of the input's character there |
| Complement.TranslateOnlyTouchesBases | G4Catchall.py:311-316 | the translated pattern differs from the original at a position exactly when the original holds one of `actguACTGU` there |
| Complement.TranslateConcat | G4Catchall.py:316 | translating a concatenation is concatenating the translations |
| G4Hunter.RunEnd | G4Catchall.py:358-386 | a run of `G` or of `C` extends to the first different character or the end; any other character is a run of one |
| G4Hunter.BaseEntry | G4Catchall.py:355-374 | a G-run's own entry lies in 1..4, a C-run's in -4..-1, any other character's is 0 |
| G4Hunter.EntryAt | G4Catchall.py:358-388 | after the rewrite of a neighbouring run, every entry still lies in -4..4 |
| G4Hunter.Entries | G4Catchall.py:353-388 | at most one entry per character, each in -4..4, all 0 when the string has no uppercase G or C |
| G4Hunter.Score | G4Catchall.py:389-393 | the sum of the entries divided by the length lies in [-1, 1], and is 0 without any uppercase G or C |
| G4Hunter.EntriesSumWithinLength | G4Catchall.py:353-392 | the entry sum from position i lies between -(\|s\|-i) and \|s\|-i, one tighter when a C-run or G-run starts at i |
| G4Hunter.ScanGRun | G4Catchall.py:356-371 | the G loop consumes exactly one maximal G-run, records its capped length, and rewrites the previous entry to -2 exactly when penalising and a C precedes the run |
| G4Hunter.ScanCRun | G4Catchall.py:372-386 | the C loop consumes exactly one maximal C-run, records its negated capped length, and rewrites the previous entry to 2 exactly when penalising and a G precedes the run |
| G4Hunter.SumEntries | G4Catchall.py:389-392 | the summing loop returns the sum of the entry list |
| G4Hunter.G4HScore | G4Catchall.py:351-393 | the script's loops (look-back rewrite of `baseScore[-1]`, `seq[i-k]` wrapping to the end at the first run, swallowed `IndexError`) compute exactly the run-by-run reference `Score` |
| G4Hunter.SingleGRun | G4Catchall.py:358-359 | a run of n G's yields one entry min(n, 4), so its score is min(n, 4)/n |
| G4Hunter.GRunThenCRun | G4Catchall.py:372-379 | a C-run right after a G-run rewrites the G-run's entry to +2 when penalising, and leaves min(m, 4) otherwise |
| G4Hunter.CRunThenGRun | G4Catchall.py:358-364 | a G-run right after a C-run rewrites the C-run's entry to -2 when penalising, and leaves -min(m, 4) otherwise |
| G4Hunter.FiveGScore | G4Catchall.py:358-393 | `GGGGG` without penalising scores 4/5: one capped entry per run, not per base |
| Pattern.DeriveFlags | G4Catchall.py:208-230 | two-guanine tracts are on with `--G2GQs_allowed` or `--G2L`; extreme loops with `--XL`; default ranges 1..2 and 1..30; extreme loops for two-guanine tracts exactly when both are on and `-E` is 2 |
| Pattern.NatToStringRoundTrip | G4Catchall.py:213-220 | the decimal rendering of a loop bound consists of digits and reads back as the bound |
| Pattern.ReversePattern | G4Catchall.py:311-318 | empty with `-R`; otherwise as long as the forward pattern and differing from it exactly at the characters `actguACTGU` |
| Pattern.MinimalGrammar | G4Catchall.py:259-300 | with no imperfect tracts, no two-guanine tracts and no extreme loops the pattern is four perfect tracts separated by typical loops |
| Pattern.ImperfectOffPattern | G4Catchall.py:259-300 | the `-I 0` pattern is `([Gg]{3,})  (\w{1,8})  ([Gg]{3,}) (\w{1,8}) ([Gg]{3,}) (\w{1,8}) ([Gg]{3,})` |
| Pattern.FlanksWrapCore | G4Catchall.py:300-301 | with flanks the pattern is the unflanked pattern with `\w` on each side |
| Pattern.ExtremeThresholdOtherThanTwo | G4Catchall.py:221-230 | every `-E` other than 2 builds the same pattern as `-E 3` |
| Pattern.ImperfectBudgetSaturates | G4Catchall.py:259-297 | every `-I` above 2 builds the same pattern as `-I 2` |
| Pattern.BulgeOnlyNeedsImperfectTracts | G4Catchall.py:242-297 | without imperfect tracts `-B` does not change the pattern |
| Pattern.TranslateAssemble | G4Catchall.py:300-316 | translating the assembled pattern translates each tract and loop in place |
| Pattern.ImperfectOffReversePattern | G4Catchall.py:311-316 | the reverse of the `-I 0` pattern is the same layout with `[Cc]{3,}` tracts |
| Pattern.ReverseGroupNames | G4Catchall.py:244-316 | the translation renames `G2GQ` to `C2CQ` and `extLoop` to `exaLoop` in definitions and references alike, and leaves `imp1`, `imp2` unchanged |
| Merger.ScoreOf | G4Catchall.py:438-446 | scoring succeeds exactly on non-empty text, with the G4Hunter score in [-1, 1] |
| Merger.FormingOf | G4Catchall.py:446-461 | the forming sequence is the observed text on `+`, and its reverse complement on `-`, which fails exactly when a character is outside the table |
| Merger.StepShape | G4Catchall.py:435-461 | a step either keeps the list, rewrites only its last row (extension), or appends one row |
| Merger.AppendedCandidate | G4Catchall.py:442-461 | a non-extending match is appended exactly when its score reaches the threshold (always, without one), as a row holding the match's id, start, end, length, strand, text, forming sequence and score |
| Merger.AppendedLengthIsSpan | G4Catchall.py:445 | a new row for a match that is a slice of its record has length = end - start = \|observed\| |
| Merger.ExtensionReplacesLast | G4Catchall.py:435-456 | an extension keeps the last row's start, sets its end to the match's end, appends the match's text past the old end, and recomputes the forming sequence (the merged text on `+`, its reverse complement on `-`) and the score from the merged text; a merged score below the threshold leaves the list unchanged |
| Merger.MergedObservedIsSlice | G4Catchall.py:437-452 | when the row and the match are slices of one record and the match reaches at least as far, the merged text is the record's slice from the row's start to the match's end |
| Merger.NestedMatchShrinksEnd | G4Catchall.py:437-440 | a match ending before the last row's end adds no text; when the merge is kept, the row's end still moves back to the match's end, so the row covers less than its observed text |
| Merger.CapDropsMatch | G4Catchall.py:434 | a match longer than a set cap leaves the fold as if it were absent |
| Merger.FoldKeepsEarlierRows | G4Catchall.py:433-461 | a fold never removes rows and can rewrite only the last row it was given |
| Merger.FoldWithoutMergeOnlyAppends | G4Catchall.py:435-450 | with `--dont_merge_overlapping` a fold only appends, at most one row per match |
| Merger.StepKeepsRowsOk | G4Catchall.py:435-461 | after one step every row still has non-empty observed text, the G4Hunter score of that text, and the text (`+`) or its reverse complement (`-`) as forming sequence |
| Merger.FoldKeepsRowsOk | G4Catchall.py:433-461 | a whole fold, over any match sequence, keeps every row with non-empty observed text, the G4Hunter score of that text, and the text or its reverse complement as forming sequence according to its strand |
| Merger.SeparatedMatchesNeverMerge | G4Catchall.py:435-450 | when every match starts after the end of the last row and of every earlier match, the fold gives the same result with merging on as with merging off |
| Merger.TouchingMatchesMerge | G4Catchall.py:435-441 | two matches where the second starts exactly at the first's end are merged into one row holding both texts with merging on, and give two rows with merging off |
| Merger.FoldKeepsSpans | G4Catchall.py:433-461 | when every match's text is as long as its span, a fold keeps every row's length column equal to its end minus its start, for new rows (`len(m.group(0))`) and extended ones (`m.end()-orj[1]`) alike |
| Merger.NestedThenOverlapRepeatsText | G4Catchall.py:435-441 | on a 10-character record, merging matches `[0,8)`, `[1,5)` and `[4,10)` gives one row over `[0,10)` whose observed text is `record[0..8] + record[5..10]`, 13 characters |
| Merger.NoMergeForwardWithinCap | G4Catchall.py:434-446 | with merging off and a cap set, a fold keeps the rows it was given and every row it adds has observed text at most the cap long |
| Merger.StepKeepsStarts | G4Catchall.py:435-461 | a step keeps the start of every existing row and appends at most one row, which starts at the match's start |
| Merger.FoldAppendsIncreasingStarts | G4Catchall.py:433-461 | over matches whose starts lie above a bound and strictly increase, a fold keeps the given rows' starts and appends rows whose starts lie above the bound and strictly increase |
| TableSort.KeyLeTotal | G4Catchall.py:409 | each sort key is a total preorder whose ties are exactly equal keys |
| TableSort.SortByPermutes | G4Catchall.py:409 | one `sorted` pass returns a permutation of the table |
| TableSort.SortBySorted | G4Catchall.py:409 | one `sorted` pass orders the table by its key |
| TableSort.SortByStable | G4Catchall.py:409 | one `sorted` pass keeps rows with equal keys in their original order |
| TableSort.SortTablePermutes | G4Catchall.py:401-410 | `sort_table` returns a permutation of the table |
| TableSort.SortTableSorted | G4Catchall.py:401-410 | `sort_table` orders the table lexicographically by the given columns, first column first |
| TableSort.SortTableStable | G4Catchall.py:401-410 | rows equal on every sort column keep their original relative order |
| Pipeline.RunOutputIsSortedCollection | G4Catchall.py:426-470 | the run fails exactly when collecting fails; otherwise the output is a permutation of the collected candidates, ordered by id, start, end and length, and stable |
| Pipeline.NoReverseIgnoresReverseMatches | G4Catchall.py:447 | with `-R` the reverse matches do not matter |
| Pipeline.LongLastForwardSkipsReverse | G4Catchall.py:448 | with a cap set, a record whose last forward match exceeds it has all its reverse matches skipped |
| Pipeline.CapWithoutMatchIsUnbound | G4Catchall.py:448 | with a cap set and no match seen yet, searching the reverse strand fails on the unbound loop variable |
| Pipeline.NoCapRunsReverse | G4Catchall.py:447-461 | without a cap the reverse fold always runs on the rows the forward fold left |
| Pipeline.ProcessRecordKeepsRowsOk | G4Catchall.py:433-461 | processing one record keeps every row consistent with its observed text: its score, and its forming sequence by strand |
| Pipeline.ProcessAllKeepsRowsOk | G4Catchall.py:426-468 | every row collected over all records is consistent with its observed text |
| Pipeline.ReverseExceedsCap | G4Catchall.py:447-461 | with merging off and a cap of 3, a reverse match of length 5 is still kept as a row, because only the leftover forward match is tested against the cap |
| Pipeline.ProcessRecordKeepsSpans | G4Catchall.py:433-461 | one record keeps every row's length equal to its end minus its start, given matches as long as their spans |
| Pipeline.ProcessAllKeepsSpans | G4Catchall.py:426-468 | every row collected over all records has length equal to end minus start, given matches as long as their spans |
| Pipeline.RunSpans | G4Catchall.py:426-470 | every printed row's length column equals its end minus its start, given matches as long as their spans |
| Pipeline.RunRowsOk | G4Catchall.py:426-470 | every printed row has non-empty observed text, the G4Hunter score of that text, and the text or its reverse complement as forming sequence according to its strand |

## Code and documentation disagree

Where the script's own usage and help texts and its code disagree, the model follows the code:

- The usage example (line 37) prints 2.11 as the G4Hunter score of `GGGTTGGGACTGGGTACGGG`. The code divides a sum of entries in -4..4, at most one per character, by the length. `G4Hunter.Score` proves every score lies in [-1, 1], so 2.11 cannot occur. By the code's rules that sequence scores 9/20.
- The `--max` help (lines 114-116) says found sequences may exceed the cap only when merging is on. With merging off this holds on the `+` strand, where line 434 tests each match (`Merger.NoMergeForwardWithinCap`). It fails on the `-` strand, where line 448 tests only the leftover forward match (`Pipeline.ReverseExceedsCap`).
- The help of `-I` (lines 99-101) says it can be set to 0, 1 or 2, and the help of `-E` (line 61) says 2 or 3. Neither is range-checked: `-I` above 2 acts like 2, and `-E` other than 2 acts like 3.
- The `--dont_merge_overlapping` help (lines 132-133) says sequences found overlapping are merged. The code also merges a match that only touches the last row: it tests the match's start against the row's exclusive end with `<=` (lines 435 and 450, `Merger.TouchingMatchesMerge`). Merging changes nothing only when matches neither overlap nor touch (`Merger.SeparatedMatchesNeverMerge`).

## Behaviour worth knowing

- A merged candidate whose score misses the threshold is not committed. The list keeps its previous last row, and the match is dropped (lines 439, 454).
- With `penalizeGC`, a G-run directly after a C-run rewrites the entry of the *previous* (C) run, and vice versa. The entry of the run being scanned is not the one rewritten.
- An absent `--G4HThreshold` admits every candidate. Under Python 2 any number compares at least as large as `None`.
- A nested match moves a row's end back without removing text (`Merger.NestedMatchShrinksEnd`). A later match that starts at or before the new end then appends the record again from that end, because lines 437 and 452 slice from the row's end. On a 10-character record, matches `[0,8)`, `[1,5)` and `[4,10)` give one row over `[0,10)` whose observed text is `record[0..8] + record[5..10]`: 13 characters for a span of 10 (`Merger.NestedThenOverlapRepeatsText`).
- Within one record and strand, candidates come out with strictly increasing starts when the matches do (`Merger.FoldAppendsIncreasingStarts`). A merge never moves a row's start.

## Left out

- Command-line parsing and the splitting of `min..max` option strings (lines 8-165, 213-220). `Pattern.Config` takes the parsed values, with loop bounds as natural numbers that `NatToString` renders back.
- FASTA reading, record concatenation, tab-separated printing and `exit` (lines 306-308, 327-331, 419-432, 464-468, 474-477): input and output. Each `Pipeline.Record` carries its id and its matches.
- The regex engine. This covers compilation, VERBOSE mode and `finditer(..., overlapped=True)` from the third-party `regex` module (lines 416-417, 433, 449). Its output is an input: a sequence of `(start, end, text)` matches. Nothing is proved about what a pattern matches.
- Floating point. The score is the exact rational sum/length as a Dafny `real`, and `str(float)` formatting is not modelled.
- The shadowed earlier definitions of `ReverseComplement` and `sort_table` (lines 171-174, 184-193), and the unused `--G4H`, `G4H_scoring` and `max_G4H_score`.
- `G4HScore`'s `minRepeat` parameter is kept but unused, as in the script.
- The two 30-character strings of the complement table are written as a `match` over the same pairs rather than built into a dictionary at run time.
- Complement.ReverseComplement: takes as a precondition that every character is in the table. The `KeyError` the script raises otherwise is modelled by `Complement.TryReverseComplement`, which the merger uses.
- Complement.TryReverseComplement: says the failing character is outside the table and occurs in the input. It does not say that it is the last such character, which is the one the script's comprehension reaches first.
- Pipeline.Run: matches are not constrained to be slices of their record with increasing starts. The lemmas that need this (`Merger.AppendedLengthIsSpan`, `Merger.MergedObservedIsSlice`, `Merger.FoldAppendsIncreasingStarts`) take it as a precondition.

=== FILE: complement.dfy ===
/** Character translation tables of G4Catchall.py: the reverse complement of a
    nucleotide string over the IUPAC ambiguity alphabet, and the base
    translation that turns the forward search pattern into the reverse one. */
module Complement {
  import opened Wrappers

  /** Membership in the key set of the complement dictionary, whose keys are
      `ATCGNWSMKRYBDHVatcgnwsmkrybdhv`. */
  predicate IsBase(c: char) {
    match c
    case 'A' => true
    case 'T' => true
    case 'C' => true
    case 'G' => true
    case 'N' => true
    case 'W' => true
    case 'S' => true
    case 'M' => true
    case 'K' => true
    case 'R' => true
    case 'Y' => true
    case 'B' => true
    case 'D' => true
    case 'H' => true
    case 'V' => true
    case 'a' => true
    case 't' => true
    case 'c' => true
    case 'g' => true
    case 'n' => true
    case 'w' => true
    case 's' => true
    case 'm' => true
    case 'k' => true
    case 'r' => true
    case 'y' => true
    case 'b' => true
    case 'd' => true
    case 'h' => true
    case 'v' => true
    case _ => false
  }

  /** The dictionary lookup `seq_dict[base]`: the key at position i of
      `ATCGNWSMKRYBDHVatcgnwsmkrybdhv` maps to the value at position i of
      `TAGCNWSKMYRVHDBtagcnwskmyrvhdb`; any other character raises KeyError. */
  function ComplementBase(c: char): (r: char)
    requires IsBase(c)
    ensures IsBase(r)
  {
    match c
    case 'A' => 'T'
    case 'T' => 'A'
    case 'C' => 'G'
    case 'G' => 'C'
    case 'N' => 'N'
    case 'W' => 'W'
    case 'S' => 'S'
    case 'M' => 'K'
    case 'K' => 'M'
    case 'R' => 'Y'
    case 'Y' => 'R'
    case 'B' => 'V'
    case 'D' => 'H'
    case 'H' => 'D'
    case 'V' => 'B'
    case 'a' => 't'
    case 't' => 'a'
    case 'c' => 'g'
    case 'g' => 'c'
    case 'n' => 'n'
    case 'w' => 'w'
    case 's' => 's'
    case 'm' => 'k'
    case 'k' => 'm'
    case 'r' => 'y'
    case 'y' => 'r'
    case 'b' => 'v'
    case 'd' => 'h'
    case 'h' => 'd'
    case 'v' => 'b'
  }

  /** Every base is paired with its complement: applying the table twice is the identity. */
  lemma ComplementBaseInvolution(c: char)
    requires IsBase(c)
    ensures ComplementBase(ComplementBase(c)) == c
    ensures ComplementBase(c) == c <==> c in "NWSnws"
  {
  }

  predicate InTable(s: string) {
    forall i :: 0 <= i < |s| ==> IsBase(s[i])
  }

  /** The reverse complement (lines 337-341): the input read backwards, each character
      replaced by its partner in the table. */
  function ReverseComplement(s: string): (r: string)
    requires InTable(s)
    ensures |r| == |s|
    ensures forall i :: 0 <= i < |s| ==> r[i] == ComplementBase(s[|s| - 1 - i])
  {
    if s == [] then []
    else
      var rest := ReverseComplement(s[..|s| - 1]);
      var r := [ComplementBase(s[|s| - 1])] + rest;
      assert forall i :: 1 <= i < |s| ==> r[i] == rest[i - 1];
      r
  }

  /** Reverse complement stays inside the table and is its own inverse there. */
  lemma ReverseComplementInvolution(s: string)
    requires InTable(s)
    ensures InTable(ReverseComplement(s))
    ensures ReverseComplement(ReverseComplement(s)) == s
  {
    var r := ReverseComplement(s);
    var rr := ReverseComplement(r);
    forall i | 0 <= i < |s|
      ensures rr[i] == s[i]
    {
      ComplementBaseInvolution(s[i]);
    }
  }

  /** `ReverseComplement` with its KeyError made explicit. The comprehension walks the
      string from its end, so the error names the last character outside the table. */
  function TryReverseComplement(s: string): (r: Result<string>)
    ensures r.Success? <==> InTable(s)
    ensures r.Success? ==> r.value == ReverseComplement(s)
    ensures r.Failure? ==> r.error.KeyError? && !IsBase(r.error.base) && r.error.base in s
  {
    if s == [] then Success([])
    else if !IsBase(s[|s| - 1]) then Failure(KeyError(s[|s| - 1]))
    else
      var rest :- TryReverseComplement(s[..|s| - 1]);
      Success([ComplementBase(s[|s| - 1])] + rest)
  }

  /** The keys of the pattern translation table, `intab`. */
  predicate IsPatternBase(c: char) {
    match c
    case 'a' | 'c' | 't' | 'g' | 'u' | 'A' | 'C' | 'T' | 'G' | 'U' => true
    case _ => false
  }

  /** One character of `string.maketrans('actguACTGU', 'tgacaTGACA')`; characters
      outside the table pass through. */
  function TranslateChar(c: char): (r: char)
    ensures !IsPatternBase(c) ==> r == c
    ensures IsPatternBase(c) ==> r != c
  {
    match c
    case 'a' => 't'
    case 'c' => 'g'
    case 't' => 'a'
    case 'g' => 'c'
    case 'u' => 'a'
    case 'A' => 'T'
    case 'C' => 'G'
    case 'T' => 'A'
    case 'G' => 'C'
    case 'U' => 'A'
    case _ => c
  }

  /** The translation of a pattern for the reverse strand (line 316): each character of
      `actguACTGU` becomes its partner in `tgacaTGACA`, every other character is kept. */
  function Translate(s: string): (r: string)
    ensures |r| == |s|
  {
    if s == [] then [] else [TranslateChar(s[0])] + Translate(s[1..])
  }

  /** The translation works character by character. */
  lemma {:induction false} TranslateAt(s: string, i: int)
    requires 0 <= i < |s|
    ensures Translate(s)[i] == TranslateChar(s[i])
  {
    if i > 0 {
      TranslateAt(s[1..], i - 1);
    }
  }

  /** The translated text differs from the original exactly at the characters of `actguACTGU`. */
  lemma TranslateOnlyTouchesBases(s: string, i: int)
    requires 0 <= i < |s|
    ensures Translate(s)[i] != s[i] <==> IsPatternBase(s[i])
  {
    TranslateAt(s, i);
  }

  /** Translation works character by character, so it distributes over concatenation:
      a group name is renamed the same way wherever it occurs. */
  lemma {:induction false} TranslateConcat(a: string, b: string)
    ensures Translate(a + b) == Translate(a) + Translate(b)
  {
    var l := Translate(a + b);
    var r := Translate(a) + Translate(b);
    forall i | 0 <= i < |l|
      ensures l[i] == r[i]
    {
      TranslateAt(a + b, i);
      if i < |a| {
        TranslateAt(a, i);
        assert (a + b)[i] == a[i];
      } else {
        TranslateAt(b, i - |a|);
        assert (a + b)[i] == b[i - |a|];
      }
    }
  }
}

=== FILE: g4hunter.dfy ===
/** The modified G4Hunter score of G4Catchall.py: one capped entry per run of
    `G` or `C`, a zero per other character, optional +/-2 entries at G/C
    junctions, averaged over the length of the string. */
module G4Hunter {

  function Min(a: int, b: int): int { if a <= b then a else b }

  /** Python's `seq[k]` for `-len(seq) <= k < len(seq)`: a negative index counts from the end. */
  function PyIndex(s: string, k: int): (c: char)
    requires -|s| <= k < |s|
    ensures k >= 0 ==> c == s[k]
    ensures k < 0 ==> c == s[|s| + k]
  {
    if k < 0 then s[|s| + k] else s[k]
  }

  /** One past the end of the run that starts at `i`: a maximal block of `G`, a maximal
      block of `C`, or a single other character. */
  function RunEnd(s: string, i: nat): (j: nat)
    requires i < |s|
    ensures i < j <= |s|
    ensures s[i] == 'G' || s[i] == 'C' ==>
      (forall t :: i <= t < j ==> s[t] == s[i]) && (j == |s| || s[j] != s[i])
    ensures s[i] != 'G' && s[i] != 'C' ==> j == i + 1
    decreases |s| - i
  {
    if s[i] != 'G' && s[i] != 'C' then i + 1
    else if i + 1 < |s| && s[i + 1] == s[i] then RunEnd(s, i + 1)
    else i + 1
  }

  /** Any end point that closes a maximal block is the one `RunEnd` finds. */
  lemma RunEndUnique(s: string, i: nat, j: nat)
    requires i < j <= |s|
    requires s[i] == 'G' || s[i] == 'C'
    requires forall t :: i <= t < j ==> s[t] == s[i]
    requires j == |s| || s[j] != s[i]
    ensures RunEnd(s, i) == j
  {
  }

  /** The entry a run contributes before any G/C junction rule: `min(runlen, 4)` for `G`,
      `max(-runlen, -4)` for `C`, 0 for any other character. */
  function BaseEntry(s: string, i: nat): (v: int)
    requires i < |s|
    ensures s[i] == 'G' ==> 1 <= v <= 4
    ensures s[i] == 'C' ==> -4 <= v <= -1
    ensures s[i] != 'G' && s[i] != 'C' ==> v == 0
  {
    var n := RunEnd(s, i) - i;
    if s[i] == 'G' then Min(n, 4)
    else if s[i] == 'C' then -Min(n, 4)
    else 0
  }

  /** The final entry of the run that starts at `i`, stated by looking at the character just
      after the run: with the junction rule on, a G-run followed by `C` counts +2 and a
      C-run followed by `G` counts -2. */
  function EntryAt(s: string, penalizeGC: bool, i: nat): (v: int)
    requires i < |s|
    ensures -4 <= v <= 4
  {
    var j := RunEnd(s, i);
    if penalizeGC && s[i] == 'G' && j < |s| && s[j] == 'C' then 2
    else if penalizeGC && s[i] == 'C' && j < |s| && s[j] == 'G' then -2
    else BaseEntry(s, i)
  }

  /** True when `s[i..]` holds no uppercase `G` and no uppercase `C`. */
  predicate NoGC(s: string, i: nat) {
    forall t :: i <= t < |s| ==> s[t] != 'G' && s[t] != 'C'
  }

  /** The entries of the runs of `s[i..]`, left to right: one per run. */
  function Entries(s: string, penalizeGC: bool, i: nat): (r: seq<int>)
    requires i <= |s|
    ensures |r| <= |s| - i
    ensures forall k :: 0 <= k < |r| ==> -4 <= r[k] <= 4
    ensures NoGC(s, i) ==> forall k :: 0 <= k < |r| ==> r[k] == 0
    decreases |s| - i
  {
    if i == |s| then [] else [EntryAt(s, penalizeGC, i)] + Entries(s, penalizeGC, RunEnd(s, i))
  }

  function Sum(xs: seq<int>): int {
    if xs == [] then 0 else xs[0] + Sum(xs[1..])
  }

  lemma {:induction false} SumAppend(xs: seq<int>, x: int)
    ensures Sum(xs + [x]) == Sum(xs) + x
  {
    if xs != [] {
      SumAppend(xs[1..], x);
      assert (xs + [x])[1..] == xs[1..] + [x];
    }
  }

  lemma {:induction false} SumBounds(xs: seq<int>)
    requires forall k :: 0 <= k < |xs| ==> -4 <= xs[k] <= 4
    ensures -4 * |xs| <= Sum(xs) <= 4 * |xs|
    ensures (forall k :: 0 <= k < |xs| ==> xs[k] == 0) ==> Sum(xs) == 0
  {
    if xs != [] {
      SumBounds(xs[1..]);
    }
  }

  /** `float(sum(baseScore)) / len(seq)`, as an exact rational. */
  function Score(s: string, penalizeGC: bool): (r: real)
    requires |s| > 0
    ensures -1.0 <= r <= 1.0
    ensures NoGC(s, 0) ==> r == 0.0
  {
    var es := Entries(s, penalizeGC, 0);
    SumBounds(es);
    EntriesSumWithinLength(s, penalizeGC, 0);
    var total := Sum(es);
    DivWithinOne(total, |s|);
    total as real / |s| as real
  }

  /** `baseScore` with its last entry overwritten to `v` when `cond` holds and the list is
      non-empty; on an empty list Python's `baseScore[-1] = v` raises IndexError, which
      the `try` swallows. */
  ghost function Overwritten(b: seq<int>, cond: bool, v: int): seq<int> {
    if cond && |b| > 0 then b[|b| - 1 := v] else b
  }

  /** Loop invariant of the outer scan: `b` holds one entry per run of `s[..i]`, the runs
      before the last one already final, the last one (starting at `last`) still at its base
      value because the junction rule rewrites it only when the next run starts. */
  ghost predicate Pending(s: string, penalizeGC: bool, b: seq<int>, last: nat, i: nat) {
    && last < i <= |s|
    && RunEnd(s, last) == i
    && |b| > 0
    && b[|b| - 1] == BaseEntry(s, last)
    && b[..|b| - 1] + [EntryAt(s, penalizeGC, last)] + Entries(s, penalizeGC, i) == Entries(s, penalizeGC, 0)
  }

  /** The rewrite done at the start of the run at `start` turns the previous run's base
      entry into its final entry. */
  lemma RewriteIsFinalEntry(s: string, penalizeGC: bool, b0: seq<int>, last: nat, start: nat, cond: bool, v: int)
    requires 0 < start < |s|
    requires Pending(s, penalizeGC, b0, last, start)
    requires cond <==> penalizeGC && s[start - 1] == (if s[start] == 'G' then 'C' else 'G')
                       && (s[start] == 'G' || s[start] == 'C')
    requires v == (if s[start] == 'G' then -2 else 2)
    ensures Overwritten(b0, cond, v) == b0[..|b0| - 1] + [EntryAt(s, penalizeGC, last)]
  {
    assert s[start - 1] == s[last];
  }

  /** Closing one run: the junction rewrite of the previous entry, then the new entry. */
  lemma PendingStep(s: string, penalizeGC: bool, b0: seq<int>, last: nat, start: nat, cond: bool, v: int)
    requires start < |s|
    requires start == 0 ==> b0 == []
    requires start > 0 ==> Pending(s, penalizeGC, b0, last, start)
    requires cond <==> penalizeGC && start > 0 && s[start - 1] == (if s[start] == 'G' then 'C' else 'G')
                       && (s[start] == 'G' || s[start] == 'C')
    requires v == (if s[start] == 'G' then -2 else 2)
    ensures Pending(s, penalizeGC, Overwritten(b0, cond, v) + [BaseEntry(s, start)], start, RunEnd(s, start))
  {
    var j := RunEnd(s, start);
    var w := Overwritten(b0, cond, v);
    var b := w + [BaseEntry(s, start)];
    var e := EntryAt(s, penalizeGC, start);
    var rest := Entries(s, penalizeGC, j);
    assert b[..|b| - 1] == w;
    assert Entries(s, penalizeGC, start) == [e] + rest;
    if start == 0 {
      assert w == [];
    } else {
      RewriteIsFinalEntry(s, penalizeGC, b0, last, start, cond, v);
      var f := EntryAt(s, penalizeGC, last);
      var p := b0[..|b0| - 1];
      assert p + [f] + Entries(s, penalizeGC, start) == Entries(s, penalizeGC, 0);
      assert w + [e] + rest == p + [f] + ([e] + rest);
    }
  }

  /** Lines 356-371 of the scan: the G-run that starts at `start`, if any. Each step sets the
      run's entry to `min(k, 4)` and, with the junction rule on, rewrites the previous
      entry to -2 when the character before the run is `C`. At `start == 0` the script
      reads `seq[-1]` and then fails on the empty list; the IndexError is swallowed. */
  method ScanGRun(s: string, start: nat, b0: seq<int>, penalizeGC: bool)
    returns (i: nat, baseScore: seq<int>, tractScore: seq<int>, gTract: bool)
    requires start < |s|
    requires |b0| > 0 <==> start > 0
    ensures gTract <==> s[start] == 'G'
    ensures gTract ==> i == RunEnd(s, start) && tractScore == [BaseEntry(s, start)]
    ensures !gTract ==> i == start && tractScore == [0]
    ensures baseScore == Overwritten(b0, penalizeGC && gTract && start > 0 && s[start - 1] == 'C', -2)
  {
    i := start;
    baseScore := b0;
    tractScore := [0];
    var k := 1;
    gTract := false;
    while i < |s| && s[i] == 'G'
      invariant start <= i <= |s| && k == i - start + 1
      invariant forall t :: start <= t < i ==> s[t] == 'G'
      invariant gTract <==> start < i
      invariant tractScore == if gTract then [Min(k - 1, 4)] else [0]
      invariant baseScore == Overwritten(b0, penalizeGC && gTract && start > 0 && s[start - 1] == 'C', -2)
    {
      tractScore := [Min(k, 4)];
      if penalizeGC {
        if PyIndex(s, i - k) == 'C' && |baseScore| > 0 {
          baseScore := baseScore[|baseScore| - 1 := -2];
        }
      }
      k := k + 1;
      i := i + 1;
      gTract := true;
    }
    if gTract {
      RunEndUnique(s, start, i);
    }
  }

  /** Lines 372-386: the C-run that starts at `start`, mirror image of `ScanGRun` with entry
      `max(-k, -4)` and a +2 rewrite of the previous entry after a `G`. */
  method ScanCRun(s: string, start: nat, b0: seq<int>, penalizeGC: bool)
    returns (i: nat, baseScore: seq<int>, tractScore: seq<int>, cTract: bool)
    requires start < |s|
    requires |b0| > 0 <==> start > 0
    ensures cTract <==> s[start] == 'C'
    ensures cTract ==> i == RunEnd(s, start) && tractScore == [BaseEntry(s, start)]
    ensures !cTract ==> i == start && tractScore == [0]
    ensures baseScore == Overwritten(b0, penalizeGC && cTract && start > 0 && s[start - 1] == 'G', 2)
  {
    i := start;
    baseScore := b0;
    tractScore := [0];
    var k := 1;
    cTract := false;
    while i < |s| && s[i] == 'C'
      invariant start <= i <= |s| && k == i - start + 1
      invariant forall t :: start <= t < i ==> s[t] == 'C'
      invariant cTract <==> start < i
      invariant tractScore == if cTract then [-Min(k - 1, 4)] else [0]
      invariant baseScore == Overwritten(b0, penalizeGC && cTract && start > 0 && s[start - 1] == 'G', 2)
    {
      tractScore := [-Min(k, 4)];
      if penalizeGC {
        if PyIndex(s, i - k) == 'G' && |baseScore| > 0 {
          baseScore := baseScore[|baseScore| - 1 := 2];
        }
      }
      k := k + 1;
      i := i + 1;
      cTract := true;
    }
    if cTract {
      RunEndUnique(s, start, i);
    }
  }

  /** Lines 390-392: `Score += value` over the list. */
  method SumEntries(xs: seq<int>) returns (total: int)
    ensures total == Sum(xs)
  {
    total := 0;
    var j := 0;
    while j < |xs|
      invariant 0 <= j <= |xs|
      invariant total == Sum(xs[..j])
    {
      assert xs[..j + 1] == xs[..j] + [xs[j]];
      SumAppend(xs[..j], xs[j]);
      total := total + xs[j];
      j := j + 1;
    }
    assert xs[..j] == xs;
  }

  /** `G4HScore(seq, minRepeat, penalizeGC)`: the left-to-right scan of the script, which
      appends one entry per run and, at the start of a run, rewrites the entry of the run
      before it. `minRepeat` is accepted and ignored, as in the script. */
  method G4HScore(s: string, minRepeat: int, penalizeGC: bool) returns (score: real)
    requires |s| > 0
    ensures score == Score(s, penalizeGC)
  {
    var i := 0;
    var baseScore: seq<int> := [];
    ghost var last: nat := 0;
    while i < |s|
      invariant 0 <= i <= |s|
      invariant i == 0 ==> baseScore == []
      invariant i > 0 ==> Pending(s, penalizeGC, baseScore, last, i)
    {
      ghost var b0 := baseScore;
      var start := i;
      var tractScore;
      var gTract;
      i, baseScore, tractScore, gTract := ScanGRun(s, start, baseScore, penalizeGC);
      if !gTract {
        i, baseScore, tractScore, gTract := ScanCRun(s, start, baseScore, penalizeGC);
      }
      PendingStep(s, penalizeGC, b0, last, start,
        penalizeGC && gTract && start > 0 && s[start - 1] == (if s[start] == 'G' then 'C' else 'G'),
        if s[start] == 'G' then -2 else 2);
      baseScore := baseScore + tractScore;
      if !gTract {
        i := i + 1;
      }
      last := start;
    }
    assert baseScore == Entries(s, penalizeGC, 0) by {
      assert baseScore == baseScore[..|baseScore| - 1] + [EntryAt(s, penalizeGC, last)];
    }
    var total := SumEntries(baseScore);
    score := total as real / |s| as real;
  }

  function Repeat(c: char, n: nat): (r: string)
    ensures |r| == n && forall t :: 0 <= t < n ==> r[t] == c
  {
    seq(n, _ => c)
  }

  /** A run of `n` uppercase `G` contributes one entry `min(n, 4)`, not one per base. */
  lemma SingleGRun(n: nat, penalizeGC: bool)
    requires n > 0
    ensures Entries(Repeat('G', n), penalizeGC, 0) == [Min(n, 4)]
    ensures Score(Repeat('G', n), penalizeGC) == Min(n, 4) as real / n as real
  {
    var s := Repeat('G', n);
    RunEndUnique(s, 0, n);
    assert Entries(s, penalizeGC, n) == [];
    assert Sum([Min(n, 4)]) == Min(n, 4);
  }

  /** With the junction rule on, a C-run right after a G-run turns the G-run's entry into +2;
      the C-run keeps its own capped entry. Without the rule both keep their base entries. */
  lemma GRunThenCRun(m: nat, n: nat)
    requires m > 0 && n > 0
    ensures Entries(Repeat('G', m) + Repeat('C', n), true, 0) == [2, -Min(n, 4)]
    ensures Entries(Repeat('G', m) + Repeat('C', n), false, 0) == [Min(m, 4), -Min(n, 4)]
  {
    var s := Repeat('G', m) + Repeat('C', n);
    RunEndUnique(s, 0, m);
    RunEndUnique(s, m, m + n);
    assert Entries(s, true, m + n) == [] && Entries(s, false, m + n) == [];
  }

  /** With the junction rule on, a G-run right after a C-run turns the C-run's entry into -2. */
  lemma CRunThenGRun(m: nat, n: nat)
    requires m > 0 && n > 0
    ensures Entries(Repeat('C', m) + Repeat('G', n), true, 0) == [-2, Min(n, 4)]
    ensures Entries(Repeat('C', m) + Repeat('G', n), false, 0) == [-Min(m, 4), Min(n, 4)]
  {
    var s := Repeat('C', m) + Repeat('G', n);
    RunEndUnique(s, 0, m);
    RunEndUnique(s, m, m + n);
    assert Entries(s, true, m + n) == [] && Entries(s, false, m + n) == [];
  }

  /** Five G bases without the junction rule: one capped entry of 4 over length 5. */
  lemma FiveGScore()
    ensures Score("GGGGG", false) == 4.0 / 5.0
  {
    SingleGRun(5, false);
    assert Repeat('G', 5) == "GGGGG";
  }

  /** Entries never outweigh the bases they cover: a +2 at a G/C junction is always
      followed by a C-run entry of at most -1, and a -2 by a G-run entry of at least +1. */
  lemma {:induction false} EntriesSumWithinLength(s: string, penalizeGC: bool, i: nat)
    requires i <= |s|
    ensures Sum(Entries(s, penalizeGC, i)) <= |s| - i - (if i < |s| && s[i] == 'C' then 1 else 0)
    ensures Sum(Entries(s, penalizeGC, i)) >= -(|s| - i) + (if i < |s| && s[i] == 'G' then 1 else 0)
    decreases |s| - i
  {
    if i < |s| {
      var j := RunEnd(s, i);
      EntriesSumWithinLength(s, penalizeGC, j);
      assert Entries(s, penalizeGC, i) == [EntryAt(s, penalizeGC, i)] + Entries(s, penalizeGC, j);
    }
  }

  lemma DivWithinOne(total: int, n: int)
    requires n > 0 && -n <= total <= n
    ensures -1.0 <= total as real / n as real <= 1.0
  {
    var q := total as real / n as real;
    assert q * n as real == total as real;
    if q > 1.0 {
      assert q * n as real > 1.0 * n as real;
    }
  }
}

=== FILE: merger.dfy ===
/** The match merger of G4Catchall.py (lines 433-461): the matches the regex
    engine reports for one strand of one record are folded, in order, into the
    list of G-quadruplex candidates. A match that overlaps or touches the last
    candidate of the same record and strand extends it; any other match becomes a
    new candidate. Either way the G4Hunter score of the resulting sequence must
    reach the threshold, or the match is dropped. */
module Merger {
  import opened Wrappers
  import Complement
  import G4Hunter

  datatype Strand = Plus | Minus

  /** One output row: `[chr, start, end, length, strand, observed, forming, score]`. */
  datatype Candidate = Candidate(
    seqId: string,
    start: nat,
    end: nat,
    length: int,
    strand: Strand,
    observed: string,
    forming: string,
    score: real)

  /** A match as the regex engine reports it: `m.start()`, `m.end()`, `m.group(0)`. */
  datatype Match = Match(start: nat, end: nat, text: string)

  /** How the merger is configured: `MergeOverlapping` and `--G4HThreshold`. The length
      cap of `--max` is passed to `Fold` on its own, since the reverse loop does not apply
      it per match. */
  datatype Settings = Settings(merge: bool, threshold: Option<real>)

  function Abs(x: real): real {
    if x < 0.0 then -x else x
  }

  /** `abs(score) >= args.G4HThreshold`; under Python 2 every number compares at least
      as large as `None`, so an absent threshold admits every score. */
  predicate Admits(threshold: Option<real>, score: real) {
    threshold.None? || Abs(score) >= threshold.value
  }

  /** `not args.max_GQ_length or len(m.group(0)) <= args.max_GQ_length`: a cap of 0
      (the option's default `False`) admits every length. */
  predicate WithinCap(maxLength: int, text: string) {
    maxLength == 0 || |text| <= maxLength
  }

  /** Python's `t[k:]` for `k >= 0`: empty once `k` passes the end. */
  function SliceFrom(t: string, k: nat): (r: string)
    ensures k <= |t| ==> r == t[k..]
    ensures k >= |t| ==> r == []
  {
    if k <= |t| then t[k..] else []
  }

  /** `G4HScore(s, 2, True)`, whose division by `len(s)` raises ZeroDivisionError on
      the empty string. */
  function ScoreOf(s: string): (r: Result<real>)
    ensures r.Success? <==> |s| > 0
    ensures r.Success? ==> r.value == G4Hunter.Score(s, true) && -1.0 <= r.value <= 1.0
  {
    if |s| == 0 then Failure(ZeroDivision) else Success(G4Hunter.Score(s, true))
  }

  /** The forming sequence: the observed text on `+`, its reverse complement on `-`. */
  function FormingOf(strand: Strand, s: string): (r: Result<string>)
    ensures strand == Plus ==> r == Success(s)
    ensures strand == Minus ==> (r.Success? <==> Complement.InTable(s))
    ensures strand == Minus && r.Success? ==> r.value == Complement.ReverseComplement(s)
  {
    if strand == Plus then Success(s) else Complement.TryReverseComplement(s)
  }

  /** The guard of lines 435 and 450. */
  predicate Extends(rows: seq<Candidate>, id: string, strand: Strand, m: Match, merge: bool) {
    merge && |rows| > 0 && rows[|rows| - 1].strand == strand &&
    m.start <= rows[|rows| - 1].end && id == rows[|rows| - 1].seqId
  }

  /** The text of an extended candidate (lines 437 and 452): the row's observed text
      followed by the part of the match that lies past the row's end. */
  function MergedText(last: Candidate, m: Match): string
    requires m.start <= last.end
  {
    last.observed + SliceFrom(m.text, last.end - m.start)
  }

  /** One iteration of the loop bodies at lines 435-446 and 450-461. */
  function Step(rows: seq<Candidate>, id: string, strand: Strand, s: Settings, m: Match): Result<seq<Candidate>> {
    if Extends(rows, id, strand, m, s.merge) then
      var last := rows[|rows| - 1];
      var text := MergedText(last, m);
      var score :- ScoreOf(text);
      if !Admits(s.threshold, score) then Success(rows)
      else
        var forming :- FormingOf(strand, text);
        Success(rows[..|rows| - 1] + [Candidate(id, last.start, m.end, m.end - last.start, strand, text, forming, score)])
    else
      var score :- ScoreOf(m.text);
      if !Admits(s.threshold, score) then Success(rows)
      else
        var forming :- FormingOf(strand, m.text);
        Success(rows + [Candidate(id, m.start, m.end, |m.text|, strand, m.text, forming, score)])
  }

  /** The `for m in ...finditer(...)` loops of lines 433 and 449, with the per-match
      length cap of line 434; the reverse loop passes a cap of 0 because its cap is
      checked once, before the loop. An exception ends the fold. */
  function Fold(rows: seq<Candidate>, id: string, strand: Strand, s: Settings, cap: int, ms: seq<Match>): Result<seq<Candidate>>
    decreases |ms|
  {
    if ms == [] then Success(rows)
    else
      var next :- if WithinCap(cap, ms[0].text) then Step(rows, id, strand, s, ms[0]) else Success(rows);
      Fold(next, id, strand, s, cap, ms[1..])
  }

  /** A step either keeps the list, rewrites only its last row, or appends one row;
      which one depends only on the guard of lines 435/450 and on the threshold. */
  lemma StepShape(rows: seq<Candidate>, id: string, strand: Strand, s: Settings, m: Match)
    requires Step(rows, id, strand, s, m).Success?
    ensures var r := Step(rows, id, strand, s, m).value;
      if Extends(rows, id, strand, m, s.merge) then
        |r| == |rows| && r[..|rows| - 1] == rows[..|rows| - 1]
      else
        r == rows || (|r| == |rows| + 1 && r[..|rows|] == rows)
  {
  }

  /** A match that starts a new candidate is appended exactly when its score reaches
      the threshold, and the new row records the match itself (lines 443-446, 458-461). */
  lemma AppendedCandidate(rows: seq<Candidate>, id: string, strand: Strand, s: Settings, m: Match)
    requires !Extends(rows, id, strand, m, s.merge)
    requires Step(rows, id, strand, s, m).Success?
    ensures var r := Step(rows, id, strand, s, m).value;
      |m.text| > 0 &&
      (|r| == |rows| + 1 <==> Admits(s.threshold, G4Hunter.Score(m.text, true))) &&
      (|r| == |rows| + 1 ==>
        var c := r[|rows|];
        c.seqId == id && c.start == m.start && c.end == m.end && c.length == |m.text| &&
        c.strand == strand && c.observed == m.text &&
        c.forming == (if strand == Plus then m.text else Complement.ReverseComplement(m.text)) &&
        c.score == G4Hunter.Score(m.text, true))
  {
  }

  /** A new row for a match that is the slice `seq[start:end]` of its record has
      `length == end - start == |observed|`. */
  lemma AppendedLengthIsSpan(rows: seq<Candidate>, id: string, strand: Strand, s: Settings, m: Match, record: string)
    requires m.start <= m.end <= |record| && m.text == record[m.start..m.end]
    requires !Extends(rows, id, strand, m, s.merge)
    requires Step(rows, id, strand, s, m).Success?
    requires |Step(rows, id, strand, s, m).value| == |rows| + 1
    ensures var c := Step(rows, id, strand, s, m).value[|rows|];
      c.length == c.end - c.start == |c.observed|
  {
  }

  /** An extension keeps the start of the last row, moves its end to the match's end,
      appends the part of the match past the old end and recomputes the forming
      sequence and the score from the merged text (lines 436-441, 451-456);
      when the merged score misses the threshold the list is left as it was. */
  lemma ExtensionReplacesLast(rows: seq<Candidate>, id: string, strand: Strand, s: Settings, m: Match)
    requires Extends(rows, id, strand, m, s.merge)
    requires Step(rows, id, strand, s, m).Success?
    ensures var r := Step(rows, id, strand, s, m).value;
      var last := rows[|rows| - 1];
      var text := last.observed + SliceFrom(m.text, last.end - m.start);
      |text| > 0 &&
      (!Admits(s.threshold, G4Hunter.Score(text, true)) ==> r == rows) &&
      (Admits(s.threshold, G4Hunter.Score(text, true)) ==>
        r[..|rows| - 1] == rows[..|rows| - 1] &&
        r[|rows| - 1].start == last.start && r[|rows| - 1].end == m.end &&
        r[|rows| - 1].length == m.end - last.start &&
        r[|rows| - 1].observed == text && r[|rows| - 1].strand == strand &&
        r[|rows| - 1].seqId == last.seqId &&
        r[|rows| - 1].forming == (if strand == Plus then text else Complement.ReverseComplement(text)) &&
        r[|rows| - 1].score == G4Hunter.Score(text, true))
  {
  }

  /** When both the last row and the match are slices of the same record and the
      match reaches at least as far, the merged text is the record's slice from the
      row's start to the match's end. */
  lemma MergedObservedIsSlice(last: Candidate, m: Match, record: string)
    requires last.start <= last.end <= |record| && last.observed == record[last.start..last.end]
    requires m.start <= m.end <= |record| && m.text == record[m.start..m.end]
    requires m.start <= last.end <= m.end
    ensures MergedText(last, m) == record[last.start..m.end]
  {
    var k := last.end - m.start;
    assert SliceFrom(m.text, k) == record[last.end..m.end];
  }

  /** A match nested inside the last row (ending before it) adds no text, yet when it
      is merged the row's end moves back to the match's end: the row then covers less
      than its observed text. */
  lemma NestedMatchShrinksEnd(rows: seq<Candidate>, id: string, strand: Strand, s: Settings, m: Match)
    requires Extends(rows, id, strand, m, s.merge)
    requires |m.text| == m.end - m.start && m.end < rows[|rows| - 1].end
    requires Step(rows, id, strand, s, m).Success?
    ensures var r := Step(rows, id, strand, s, m).value;
      r == rows ||
      (r[|rows| - 1].observed == rows[|rows| - 1].observed && r[|rows| - 1].end == m.end < rows[|rows| - 1].end)
  {
    var last := rows[|rows| - 1];
    assert MergedText(last, m) == last.observed;
  }

  /** A forward match longer than a set cap is skipped without touching the list
      (line 434). */
  lemma CapDropsMatch(rows: seq<Candidate>, id: string, strand: Strand, s: Settings, cap: int, m: Match, ms: seq<Match>)
    requires !WithinCap(cap, m.text)
    ensures Fold(rows, id, strand, s, cap, [m] + ms) == Fold(rows, id, strand, s, cap, ms)
  {
    assert ([m] + ms)[1..] == ms;
  }

  /** The rows present before a fold are never removed and only the last of them can
      be rewritten: every fold result extends the earlier rows but the last. */
  lemma {:induction false} FoldKeepsEarlierRows(rows: seq<Candidate>, id: string, strand: Strand, s: Settings, cap: int, ms: seq<Match>)
    requires |rows| > 0
    requires Fold(rows, id, strand, s, cap, ms).Success?
    ensures var r := Fold(rows, id, strand, s, cap, ms).value;
      |r| >= |rows| && r[..|rows| - 1] == rows[..|rows| - 1]
    decreases |ms|
  {
    if ms != [] {
      var next := if WithinCap(cap, ms[0].text) then Step(rows, id, strand, s, ms[0]) else Success(rows);
      if WithinCap(cap, ms[0].text) {
        StepShape(rows, id, strand, s, ms[0]);
      }
      var n := next.value;
      FoldKeepsEarlierRows(n, id, strand, s, cap, ms[1..]);
      assert n[..|rows| - 1] == rows[..|rows| - 1];
      var r := Fold(n, id, strand, s, cap, ms[1..]).value;
      assert r[..|rows| - 1] == r[..|n| - 1][..|rows| - 1];
    }
  }

  /** With merging switched off, a fold keeps the earlier rows as they are and adds at
      most one row per match. */
  lemma {:induction false} FoldWithoutMergeOnlyAppends(rows: seq<Candidate>, id: string, strand: Strand, s: Settings, cap: int, ms: seq<Match>)
    requires !s.merge
    requires Fold(rows, id, strand, s, cap, ms).Success?
    ensures var r := Fold(rows, id, strand, s, cap, ms).value;
      |rows| <= |r| <= |rows| + |ms| && r[..|rows|] == rows
    decreases |ms|
  {
    if ms != [] {
      var next := if WithinCap(cap, ms[0].text) then Step(rows, id, strand, s, ms[0]) else Success(rows);
      if WithinCap(cap, ms[0].text) {
        StepShape(rows, id, strand, s, ms[0]);
      }
      var n := next.value;
      FoldWithoutMergeOnlyAppends(n, id, strand, s, cap, ms[1..]);
      var r := Fold(n, id, strand, s, cap, ms[1..]).value;
      assert r[..|rows|] == r[..|n|][..|rows|];
    }
  }

  /** What every row of the list holds (lines 438-461): a non-empty observed text, its
      G4Hunter score, and a forming sequence that is the observed text on `+` and its
      reverse complement on `-`. */
  predicate RowOk(c: Candidate) {
    |c.observed| > 0 &&
    c.score == G4Hunter.Score(c.observed, true) &&
    (c.strand == Plus ==> c.forming == c.observed) &&
    (c.strand == Minus ==> Complement.InTable(c.observed) && c.forming == Complement.ReverseComplement(c.observed))
  }

  predicate AllRowsOk(rows: seq<Candidate>) {
    forall i :: 0 <= i < |rows| ==> RowOk(rows[i])
  }

  /** Appending or extending a row keeps every row consistent with its observed text. */
  lemma StepKeepsRowsOk(rows: seq<Candidate>, id: string, strand: Strand, s: Settings, m: Match)
    requires AllRowsOk(rows)
    requires Step(rows, id, strand, s, m).Success?
    ensures AllRowsOk(Step(rows, id, strand, s, m).value)
  {
  }

  /** A fold keeps every row consistent with its observed text, the rows it was given as
      well as the ones it appends or extends. */
  lemma {:induction false} FoldKeepsRowsOk(rows: seq<Candidate>, id: string, strand: Strand, s: Settings, cap: int, ms: seq<Match>)
    requires AllRowsOk(rows)
    requires Fold(rows, id, strand, s, cap, ms).Success?
    ensures AllRowsOk(Fold(rows, id, strand, s, cap, ms).value)
    decreases |ms|
  {
    if ms != [] {
      if WithinCap(cap, ms[0].text) {
        StepKeepsRowsOk(rows, id, strand, s, ms[0]);
        FoldKeepsRowsOk(Step(rows, id, strand, s, ms[0]).value, id, strand, s, cap, ms[1..]);
      } else {
        FoldKeepsRowsOk(rows, id, strand, s, cap, ms[1..]);
      }
    }
  }

  /** Matches that are pairwise apart, all starting after the end of the last row: no
      match touches the previous row or an earlier match. */
  predicate Separated(rows: seq<Candidate>, ms: seq<Match>) {
    (|rows| > 0 ==> forall i :: 0 <= i < |ms| ==> rows[|rows| - 1].end < ms[i].start) &&
    (forall i, j :: 0 <= i < j < |ms| ==> ms[i].end < ms[j].start)
  }

  /** On matches that neither overlap nor touch, merging changes nothing: the fold with
      merging on gives the same result, error or list, as the fold with merging off. */
  lemma {:induction false} SeparatedMatchesNeverMerge(rows: seq<Candidate>, id: string, strand: Strand, threshold: Option<real>, cap: int, ms: seq<Match>)
    requires Separated(rows, ms)
    ensures Fold(rows, id, strand, Settings(true, threshold), cap, ms) ==
            Fold(rows, id, strand, Settings(false, threshold), cap, ms)
    decreases |ms|
  {
    if ms != [] {
      var on, off := Settings(true, threshold), Settings(false, threshold);
      assert Step(rows, id, strand, on, ms[0]) == Step(rows, id, strand, off, ms[0]);
      var next := if WithinCap(cap, ms[0].text) then Step(rows, id, strand, off, ms[0]) else Success(rows);
      if next.Success? {
        var n := next.value;
        assert n == rows || (|n| == |rows| + 1 && n[..|rows|] == rows && n[|rows|].end == ms[0].end);
        SeparatedMatchesNeverMerge(n, id, strand, threshold, cap, ms[1..]);
      }
    }
  }

  /** Matches that touch without overlapping are still merged: the guard of lines 435
      and 450 compares the match's start with the row's exclusive end using `<=`, so
      two touching matches give one row with merging on and two rows with it off. */
  lemma TouchingMatchesMerge(id: string, threshold: Option<real>, a: Match, b: Match)
    requires threshold.None? && |a.text| > 0 && |b.text| > 0 && a.end == b.start
    ensures var on := Fold([], id, Plus, Settings(true, threshold), 0, [a, b]);
      on.Success? && |on.value| == 1 && on.value[0].observed == a.text + b.text
    ensures var off := Fold([], id, Plus, Settings(false, threshold), 0, [a, b]);
      off.Success? && |off.value| == 2
  {
    assert [a, b][1..] == [b] && [b][1..] == [];
    TouchingMerged(id, threshold, a, b);
    TouchingKeptApart(id, threshold, a, b);
    var on, off := Settings(true, threshold), Settings(false, threshold);
    var r1 := Step([], id, Plus, on, a).value;
    assert Fold([], id, Plus, on, 0, [a, b]) == Fold(r1, id, Plus, on, 0, [b]);
    assert Fold(r1, id, Plus, on, 0, [b]) == Step(r1, id, Plus, on, b);
    var r2 := Step([], id, Plus, off, a).value;
    assert Fold([], id, Plus, off, 0, [a, b]) == Fold(r2, id, Plus, off, 0, [b]);
    assert Fold(r2, id, Plus, off, 0, [b]) == Step(r2, id, Plus, off, b);
  }

  lemma TouchingMerged(id: string, threshold: Option<real>, a: Match, b: Match)
    requires threshold.None? && |a.text| > 0 && a.end == b.start
    ensures var on := Settings(true, threshold);
      var rows := Step([], id, Plus, on, a);
      rows.Success? && |rows.value| == 1 &&
      Step(rows.value, id, Plus, on, b).Success? &&
      Step(rows.value, id, Plus, on, b).value == [Step(rows.value, id, Plus, on, b).value[0]] &&
      Step(rows.value, id, Plus, on, b).value[0].observed == a.text + b.text
  {
    var on := Settings(true, threshold);
    var rows := Step([], id, Plus, on, a).value;
    assert rows == [Candidate(id, a.start, a.end, |a.text|, Plus, a.text, a.text, G4Hunter.Score(a.text, true))];
    assert Extends(rows, id, Plus, b, true);
    assert MergedText(rows[0], b) == a.text + b.text;
  }

  lemma TouchingKeptApart(id: string, threshold: Option<real>, a: Match, b: Match)
    requires threshold.None? && |a.text| > 0 && |b.text| > 0
    ensures var off := Settings(false, threshold);
      var rows := Step([], id, Plus, off, a);
      rows.Success? && |rows.value| == 1 &&
      Step(rows.value, id, Plus, off, b).Success? && |Step(rows.value, id, Plus, off, b).value| == 2
  {
  }

  /** With merging off and a cap set, every row a fold adds is at most the cap long:
      the per-match test of line 434 keeps the promise of the `--max` help. */
  lemma {:induction false} NoMergeForwardWithinCap(rows: seq<Candidate>, id: string, strand: Strand, s: Settings, cap: int, ms: seq<Match>)
    requires !s.merge && cap > 0
    requires Fold(rows, id, strand, s, cap, ms).Success?
    ensures var r := Fold(rows, id, strand, s, cap, ms).value;
      |r| >= |rows| && r[..|rows|] == rows &&
      forall i :: |rows| <= i < |r| ==> |r[i].observed| <= cap
    decreases |ms|
  {
    if ms != [] {
      var next := if WithinCap(cap, ms[0].text) then Step(rows, id, strand, s, ms[0]) else Success(rows);
      var n := next.value;
      assert |n| >= |rows| && n[..|rows|] == rows && forall i :: |rows| <= i < |n| ==> |n[i].observed| <= cap;
      NoMergeForwardWithinCap(n, id, strand, s, cap, ms[1..]);
      var r := Fold(n, id, strand, s, cap, ms[1..]).value;
      assert r[..|rows|] == r[..|n|][..|rows|];
      forall i | |rows| <= i < |r|
        ensures |r[i].observed| <= cap
      {
        if i < |n| {
          assert r[i] == r[..|n|][i];
        }
      }
    }
  }

  /** Matches whose starts all lie above `lo` and strictly increase, as the regex engine
      reports them in scan order. */
  predicate StartsAbove(ms: seq<Match>, lo: int) {
    (forall i :: 0 <= i < |ms| ==> lo < ms[i].start) &&
    (forall i, j :: 0 <= i < j < |ms| ==> ms[i].start < ms[j].start)
  }

  /** A step never moves the start of an existing row, and a row it appends starts where
      the match starts (lines 440 and 445, 455 and 460). */
  lemma StepKeepsStarts(rows: seq<Candidate>, id: string, strand: Strand, s: Settings, m: Match)
    requires Step(rows, id, strand, s, m).Success?
    ensures var r := Step(rows, id, strand, s, m).value;
      |rows| <= |r| <= |rows| + 1 &&
      (forall i :: 0 <= i < |rows| ==> r[i].start == rows[i].start) &&
      (|r| == |rows| + 1 ==> r[|rows|].start == m.start)
  {
  }

  /** A fold over matches with increasing starts keeps the starts of the rows it was
      given and appends rows whose starts lie above `lo` and strictly increase: the
      candidates of one record and strand come out ordered by start. */
  lemma {:induction false} FoldAppendsIncreasingStarts(rows: seq<Candidate>, id: string, strand: Strand, s: Settings, cap: int, ms: seq<Match>, lo: int)
    requires StartsAbove(ms, lo)
    requires Fold(rows, id, strand, s, cap, ms).Success?
    ensures var r := Fold(rows, id, strand, s, cap, ms).value;
      |r| >= |rows| &&
      (forall i :: 0 <= i < |rows| ==> r[i].start == rows[i].start) &&
      (forall i :: |rows| <= i < |r| ==> lo < r[i].start) &&
      (forall i, j :: |rows| <= i < j < |r| ==> r[i].start < r[j].start)
    decreases |ms|
  {
    if ms != [] {
      var next := if WithinCap(cap, ms[0].text) then Step(rows, id, strand, s, ms[0]) else Success(rows);
      if WithinCap(cap, ms[0].text) {
        StepKeepsStarts(rows, id, strand, s, ms[0]);
      }
      var n := next.value;
      assert StartsAbove(ms[1..], ms[0].start);
      FoldAppendsIncreasingStarts(n, id, strand, s, cap, ms[1..], ms[0].start);
    }
  }

  /** A row whose printed length is its span: the length column equals end minus start. */
  predicate SpanOk(c: Candidate) {
    c.length == c.end - c.start
  }

  predicate AllSpanOk(rows: seq<Candidate>) {
    forall i :: 0 <= i < |rows| ==> SpanOk(rows[i])
  }

  /** Matches whose text is as long as their span, as every `m.group(0)` is. */
  predicate TextsAreSpans(ms: seq<Match>) {
    forall i :: 0 <= i < |ms| ==> |ms[i].text| == ms[i].end - ms[i].start
  }

  /** A fold keeps the length column equal to end minus start: a new row stores
      `len(m.group(0))` (lines 445, 460) and an extension `m.end() - orj[1]` (lines 440,
      455). */
  lemma {:induction false} FoldKeepsSpans(rows: seq<Candidate>, id: string, strand: Strand, s: Settings, cap: int, ms: seq<Match>)
    requires AllSpanOk(rows) && TextsAreSpans(ms)
    requires Fold(rows, id, strand, s, cap, ms).Success?
    ensures AllSpanOk(Fold(rows, id, strand, s, cap, ms).value)
    decreases |ms|
  {
    if ms != [] {
      var next := if WithinCap(cap, ms[0].text) then Step(rows, id, strand, s, ms[0]) else Success(rows);
      FoldKeepsSpans(next.value, id, strand, s, cap, ms[1..]);
    }
  }

  /** After a nested match has moved a row's end back, a later match that starts before
      the old end appends the record again from the new end: matches `[0,8)`, `[1,5)` and
      `[4,10)` of a 10-character record give one row over `[0,10)` whose observed text is
      `record[0..8] + record[5..10]`, 13 characters (lines 437-440). */
  lemma NestedThenOverlapRepeatsText(id: string, record: string)
    requires |record| == 10
    ensures var ms := [Match(0, 8, record[0..8]), Match(1, 5, record[1..5]), Match(4, 10, record[4..10])];
      var r := Fold([], id, Plus, Settings(true, None), 0, ms);
      r.Success? && |r.value| == 1 && r.value[0].start == 0 && r.value[0].end == 10 &&
      r.value[0].observed == record[0..8] + record[5..10] && |r.value[0].observed| == 13
  {
    var on := Settings(true, None);
    var m1, m2, m3 := Match(0, 8, record[0..8]), Match(1, 5, record[1..5]), Match(4, 10, record[4..10]);
    var ms := [m1, m2, m3];
    assert ms[1..] == [m2, m3] && [m2, m3][1..] == [m3] && [m3][1..] == [];
    var r1 := Step([], id, Plus, on, m1).value;
    var r2 := Step(r1, id, Plus, on, m2).value;
    NestedFirstStep(id, record);
    NestedSecondStep(id, record, r1);
    NestedThirdStep(id, record, r2);
    assert Fold([], id, Plus, on, 0, ms) == Fold(r1, id, Plus, on, 0, [m2, m3]);
    assert Fold(r1, id, Plus, on, 0, [m2, m3]) == Fold(r2, id, Plus, on, 0, [m3]);
    assert Fold(r2, id, Plus, on, 0, [m3]) == Step(r2, id, Plus, on, m3);
  }

  /** The only row is a `+` row of record `id` over `[start, end)` holding `observed`. */
  predicate SingleRow(rows: seq<Candidate>, id: string, start: nat, end: nat, observed: string) {
    |rows| == 1 && rows[0].seqId == id && rows[0].strand == Plus &&
    rows[0].start == start && rows[0].end == end && rows[0].observed == observed
  }

  lemma NestedFirstStep(id: string, record: string)
    requires |record| == 10
    ensures var r := Step([], id, Plus, Settings(true, None), Match(0, 8, record[0..8]));
      r.Success? && SingleRow(r.value, id, 0, 8, record[0..8])
  {
  }

  lemma NestedSecondStep(id: string, record: string, rows: seq<Candidate>)
    requires |record| == 10 && SingleRow(rows, id, 0, 8, record[0..8])
    ensures var r := Step(rows, id, Plus, Settings(true, None), Match(1, 5, record[1..5]));
      r.Success? && SingleRow(r.value, id, 0, 5, record[0..8])
  {
    assert MergedText(rows[0], Match(1, 5, record[1..5])) == record[0..8];
  }

  lemma NestedThirdStep(id: string, record: string, rows: seq<Candidate>)
    requires |record| == 10 && SingleRow(rows, id, 0, 5, record[0..8])
    ensures var r := Step(rows, id, Plus, Settings(true, None), Match(4, 10, record[4..10]));
      r.Success? && SingleRow(r.value, id, 0, 10, record[0..8] + record[5..10])
  {
    assert SliceFrom(record[4..10], 1) == record[5..10];
    assert MergedText(rows[0], Match(4, 10, record[4..10])) == record[0..8] + record[5..10];
  }
}

=== FILE: pattern.dfy ===
/** Flag derivation and search-pattern construction of G4Catchall.py: the
    command-line values become a handful of flags, and the flags pick the
    alternatives of each G-tract and loop of the regular expression
    `Tract1 Loop1 Tract2 Loop2 Tract3 Loop3 Tract4`. The regex engine itself is
    not modelled; the pattern is a string. */
module Pattern {
  import opened Wrappers
  import Complement

  /** A loop-length range `min..max` as given on the command line. */
  datatype Range = Range(lo: nat, hi: nat)

  /** The parsed command-line values the core reads. */
  datatype Config = Config(
    g2gqsAllowed: bool,             // --G2GQs_allowed
    g2Loop: Option<Range>,          // --G2GQ_loop/--G2L; None when the option is absent
    g3Loop: Range,                  // --G3GQ_loop/--G3L, default 1..8
    extremeLoop: Option<Range>,     // --extreme_loop/--XL; None when the option is absent
    minGtractForExtremeLoop: int,   // -E, default 3
    maxImperfectGtracts: int,       // -I, default 1
    bulgeOnly: bool,                // -B
    maxGQLength: int,               // --max; 0 when absent (the script's `False`)
    noReverse: bool,                // -R
    dontMergeOverlapping: bool,     // --dont_merge_overlapping
    includeFlanks: bool,            // --include_flanks/--F
    threshold: Option<real>)        // --G4HThreshold

  /** The flags of lines 208-230 that shape the grammar. */
  datatype Flags = Flags(
    g2sAllowed: bool,
    shrtLoop: Range,
    typLoop: Range,
    extLoop: Range,
    extremeAllowed: bool,
    extremeAllowedForG2s: bool,
    imperfectTractsAllowed: int,
    bulgedTractsOnly: bool)

  /** Lines 208-230. Only `-E 2` can switch extreme loops on for two-guanine tracts, and
      only when both two-guanine tracts and extreme loops are enabled on their own. */
  function DeriveFlags(cfg: Config): (f: Flags)
    ensures f.extremeAllowedForG2s <==> f.g2sAllowed && f.extremeAllowed && cfg.minGtractForExtremeLoop == 2
    ensures f.g2sAllowed <==> cfg.g2gqsAllowed || cfg.g2Loop.Some?
    ensures f.extremeAllowed <==> cfg.extremeLoop.Some?
    ensures f.shrtLoop == if cfg.g2Loop.Some? then cfg.g2Loop.value else Range(1, 2)
    ensures f.extLoop == if cfg.extremeLoop.Some? then cfg.extremeLoop.value else Range(1, 30)
  {
    var g2s := cfg.g2gqsAllowed || cfg.g2Loop.Some?;
    var shrt := if cfg.g2Loop.Some? then cfg.g2Loop.value else Range(1, 2);
    var extAllowed := cfg.extremeLoop.Some?;
    var ext := if cfg.extremeLoop.Some? then cfg.extremeLoop.value else Range(1, 30);
    var extForG2s :=
      if cfg.minGtractForExtremeLoop == 2 then true
      else if cfg.minGtractForExtremeLoop == 3 then false
      else false;
    var extForG2s' := if !g2s || !extAllowed then false else extForG2s;
    Flags(g2s, shrt, cfg.g3Loop, ext, extAllowed, extForG2s', cfg.maxImperfectGtracts, cfg.bulgeOnly)
  }

  predicate IsDigit(c: char) { '0' <= c <= '9' }

  /** Decimal rendering of a loop bound, as it appears in the `min..max` option text. */
  function NatToString(n: nat): (r: string)
    ensures |r| > 0
  {
    if n < 10 then [('0' as int + n) as char]
    else NatToString(n / 10) + [('0' as int + n % 10) as char]
  }

  function DigitValue(c: char): nat
    requires IsDigit(c)
  {
    c as int - '0' as int
  }

  predicate AllDigits(s: string) {
    forall i :: 0 <= i < |s| ==> IsDigit(s[i])
  }

  lemma {:induction false} NatToStringDigits(n: nat)
    ensures AllDigits(NatToString(n))
  {
    if n >= 10 {
      NatToStringDigits(n / 10);
    }
  }

  function ParseNat(s: string): nat
    requires AllDigits(s)
  {
    if s == [] then 0 else 10 * ParseNat(s[..|s| - 1]) + DigitValue(s[|s| - 1])
  }

  /** Rendering a bound loses nothing: reading the digits back gives the bound. */
  lemma {:induction false} NatToStringRoundTrip(n: nat)
    ensures AllDigits(NatToString(n)) && ParseNat(NatToString(n)) == n
  {
    NatToStringDigits(n);
    var r := NatToString(n);
    if n >= 10 {
      NatToStringRoundTrip(n / 10);
      assert r[..|r| - 1] == NatToString(n / 10);
    }
  }

  const BulgeOnly: string := "[Gg]{2,}[ATUCatuc][Gg]+|[Gg]+[ATUCatuc][Gg]{2,}"
  const Mismatch: string := "[Gg]{2,}|[Gg]+[ATUCatuc][Gg]+"
  const Dimp1: string := "?P<imp1>"
  const Dimp2: string := "?P<imp2>"
  const Timp1: string := "?(imp1)"
  const Timp2: string := "?(imp2)"
  const Tshrt: string := "?(G2GQ)"
  const Dshrt: string := "?P<G2GQ>[Gg]{2}"
  const Dext: string := "?P<extLoop>"
  const Text: string := "?(extLoop)"
  const Perfect: string := "[Gg]{3,}"

  /** `\w{min,max}` */
  function AnyRun(r: Range): string {
    "\\w{" + NatToString(r.lo) + "," + NatToString(r.hi) + "}"
  }

  /** Lines 246-248: the imperfect-tract group, bulges only or bulges and mismatches. */
  function Imp(f: Flags): string {
    "(" + (if f.bulgedTractsOnly then BulgeOnly else Mismatch) + ")"
  }

  /** The first tract (lines 259-262): a perfect G-tract, optionally an imperfect tract
      and a two-guanine tract as alternatives. */
  function Tract1(f: Flags): string {
    var t := Perfect;
    var t := if f.imperfectTractsAllowed > 0 then t + "|(" + Dimp1 + Imp(f) + ")" else t;
    if f.g2sAllowed then t + "|(" + Dshrt + ")" else t
  }

  /** The first loop (lines 264-271): a typical loop, optionally an extreme loop, and with
      two-guanine tracts a conditional short loop. */
  function Loop1(f: Flags): string {
    var l := AnyRun(f.typLoop);
    var l := if f.extremeAllowed then l + "|(" + Dext + AnyRun(f.extLoop) + ")" else l;
    if f.g2sAllowed then
      var shrtAdd := AnyRun(f.shrtLoop);
      var shrtAdd := if f.extremeAllowedForG2s then shrtAdd + "|(" + Dext + AnyRun(f.extLoop) + ")" else shrtAdd;
      Tshrt + "(" + shrtAdd + ")|(" + l + ")"
    else l
  }

  /** The second tract (lines 273-278): perfect, or imperfect when the budget allows,
      conditional on the groups opened by earlier tracts. */
  function Tract2(f: Flags): string {
    var t := Perfect;
    var t := if f.imperfectTractsAllowed > 1 then t + "|(" + Dimp2 + Imp(f) + ")" else t;
    var t := if f.imperfectTractsAllowed > 0 then Timp1 + "(" + t + ")|([Gg]{3,}|(" + Dimp1 + Imp(f) + "))" else t;
    if f.g2sAllowed then Tshrt + "[Gg]{2,}|(" + t + ")" else t
  }

  /** The second and third loop (lines 280-288): at most one extreme loop over the whole
      pattern, and short loops after two-guanine tracts. */
  function Loop2(f: Flags): string {
    var typ := AnyRun(f.typLoop);
    var ext := AnyRun(f.extLoop);
    var shrt := AnyRun(f.shrtLoop);
    var l := if f.extremeAllowed then Text + typ + "|(" + typ + "|(" + Dext + ext + "))" else typ;
    if f.g2sAllowed then
      var shrtAdd := if f.extremeAllowedForG2s then Text + shrt + "|(" + shrt + "|(" + Dext + ext + "))" else shrt;
      Tshrt + "(" + shrtAdd + ")|(" + l + ")"
    else l
  }

  /** The third and fourth tract (lines 290-297): an imperfect tract only when no earlier
      tract used the imperfect budget. */
  function Tract3(f: Flags): string {
    var t := Perfect;
    var t := if f.imperfectTractsAllowed > 1 then Timp2 + t + "|([Gg]{3,}|(" + Dimp2 + Imp(f) + "))" else t;
    var t := if f.imperfectTractsAllowed > 0 then Timp1 + "(" + t + ")|([Gg]{3,}|(" + Dimp1 + Imp(f) + "))" else t;
    if f.g2sAllowed then Tshrt + "[Gg]{2,}|(" + t + ")" else t
  }

  /** Line 300: seven groups, the two spaces after the first two and one after the others
      (ignored by the verbose-mode engine). */
  function Assemble(t1: string, l1: string, t2: string, l2: string, t3: string, l3: string, t4: string): string {
    "(" + t1 + ")  (" + l1 + ")  (" + t2 + ") (" + l2 + ") (" + t3 + ") (" + l3 + ") (" + t4 + ")"
  }

  /** Line 300: the third loop repeats the second loop and the fourth tract repeats the third. */
  function Core(f: Flags): string {
    Assemble(Tract1(f), Loop1(f), Tract2(f), Loop2(f), Tract3(f), Loop2(f), Tract3(f))
  }

  /** Lines 300-301 (with `InclFlanks` of line 232): `reg`, optionally wrapped in one word
      character on each side. */
  function ForwardPattern(cfg: Config): string {
    var reg := Core(DeriveFlags(cfg));
    if cfg.includeFlanks then "\\w" + reg + "\\w" else reg
  }

  /** Lines 311-318: the reverse-strand pattern; empty when the reverse strand is not searched. */
  function ReversePattern(cfg: Config): (r: string)
    ensures cfg.noReverse ==> r == ""
    ensures !cfg.noReverse ==> |r| == |ForwardPattern(cfg)|
    ensures !cfg.noReverse ==> forall i :: 0 <= i < |r| ==>
      (r[i] != ForwardPattern(cfg)[i] <==> Complement.IsPatternBase(ForwardPattern(cfg)[i]))
  {
    if cfg.noReverse then ""
    else
      var fwd := ForwardPattern(cfg);
      var r := Complement.Translate(fwd);
      forall i | 0 <= i < |r|
        ensures r[i] != fwd[i] <==> Complement.IsPatternBase(fwd[i])
      {
        Complement.TranslateOnlyTouchesBases(fwd, i);
      }
      r
  }

  /** `-E` is not validated: every value other than 2 builds the pattern of `-E 3`. */
  lemma ExtremeThresholdOtherThanTwo(cfg: Config)
    requires cfg.minGtractForExtremeLoop != 2
    ensures ForwardPattern(cfg) == ForwardPattern(cfg.(minGtractForExtremeLoop := 3))
  {
    assert DeriveFlags(cfg) == DeriveFlags(cfg.(minGtractForExtremeLoop := 3));
  }

  /** `-I` is not validated: the tracts only ask whether the budget exceeds 0 and 1, so
      every budget above 2 builds the pattern of `-I 2`. */
  lemma ImperfectBudgetSaturates(cfg: Config)
    requires cfg.maxImperfectGtracts >= 2
    ensures ForwardPattern(cfg) == ForwardPattern(cfg.(maxImperfectGtracts := 2))
  {
    var f, f2 := DeriveFlags(cfg), DeriveFlags(cfg.(maxImperfectGtracts := 2));
    assert Tract1(f) == Tract1(f2) && Tract2(f) == Tract2(f2) && Tract3(f) == Tract3(f2);
    assert Loop1(f) == Loop1(f2) && Loop2(f) == Loop2(f2);
  }

  /** `-B` only shapes the imperfect tracts: without them it changes nothing. */
  lemma BulgeOnlyNeedsImperfectTracts(cfg: Config)
    requires cfg.maxImperfectGtracts <= 0
    ensures ForwardPattern(cfg) == ForwardPattern(cfg.(bulgeOnly := !cfg.bulgeOnly))
  {
    var f, f2 := DeriveFlags(cfg), DeriveFlags(cfg.(bulgeOnly := !cfg.bulgeOnly));
    assert Tract1(f) == Tract1(f2) && Tract2(f) == Tract2(f2) && Tract3(f) == Tract3(f2);
    assert Loop1(f) == Loop1(f2) && Loop2(f) == Loop2(f2);
  }

  /** The configuration of `G4Catchall.py -I 0`: no imperfect tracts, no two-guanine
      tracts, no extreme loops, no flanks, default typical loops 1..8. */
  const ImperfectOff: Config :=
    Config(false, None, Range(1, 8), None, 3, 0, false, 0, false, false, false, None)

  /** With every optional feature off the grammar is four perfect tracts separated by
      typical loops, whatever the loop range. */
  lemma MinimalGrammar(cfg: Config)
    requires cfg.maxImperfectGtracts <= 0 && !cfg.g2gqsAllowed && cfg.g2Loop.None? && cfg.extremeLoop.None?
    ensures Core(DeriveFlags(cfg)) ==
      var typ := AnyRun(cfg.g3Loop);
      Assemble(Perfect, typ, Perfect, typ, Perfect, typ, Perfect)
  {
  }

  /** The rendering of the default typical-loop range. */
  lemma DefaultLoopText()
    ensures AnyRun(Range(1, 8)) == "\\w{1,8}"
  {
    assert NatToString(1) == "1" && NatToString(8) == "8";
  }

  /** The pattern printed by `G4Catchall.py -I 0` in the usage text. */
  lemma ImperfectOffPattern()
    ensures ForwardPattern(ImperfectOff) ==
      "([Gg]{3,})  (\\w{1,8})  ([Gg]{3,}) (\\w{1,8}) ([Gg]{3,}) (\\w{1,8}) ([Gg]{3,})"
  {
    MinimalGrammar(ImperfectOff);
    DefaultLoopText();
    FourPerfectTractsText();
  }

  /** The seven slots of `Assemble` joined, written out for the `-I 0` tracts and loops. */
  lemma FourPerfectTractsText()
    ensures Assemble("[Gg]{3,}", "\\w{1,8}", "[Gg]{3,}", "\\w{1,8}", "[Gg]{3,}", "\\w{1,8}", "[Gg]{3,}") ==
      "([Gg]{3,})  (\\w{1,8})  ([Gg]{3,}) (\\w{1,8}) ([Gg]{3,}) (\\w{1,8}) ([Gg]{3,})"
  {
    assert "(" + "[Gg]{3,}" == "([Gg]{3,}";
    assert "([Gg]{3,}" + ")  (" == "([Gg]{3,})  (";
    assert "([Gg]{3,})  (" + "\\w{1,8}" == "([Gg]{3,})  (\\w{1,8}";
    assert "([Gg]{3,})  (\\w{1,8}" + ")  (" == "([Gg]{3,})  (\\w{1,8})  (";
    assert "([Gg]{3,})  (\\w{1,8})  (" + "[Gg]{3,}" == "([Gg]{3,})  (\\w{1,8})  ([Gg]{3,}";
    assert "([Gg]{3,})  (\\w{1,8})  ([Gg]{3,}" + ") (" == "([Gg]{3,})  (\\w{1,8})  ([Gg]{3,}) (";
    assert "([Gg]{3,})  (\\w{1,8})  ([Gg]{3,}) (" + "\\w{1,8}" == "([Gg]{3,})  (\\w{1,8})  ([Gg]{3,}) (\\w{1,8}";
    assert "([Gg]{3,})  (\\w{1,8})  ([Gg]{3,}) (\\w{1,8}" + ") (" == "([Gg]{3,})  (\\w{1,8})  ([Gg]{3,}) (\\w{1,8}) (";
    assert "([Gg]{3,})  (\\w{1,8})  ([Gg]{3,}) (\\w{1,8}) (" + "[Gg]{3,}" == "([Gg]{3,})  (\\w{1,8})  ([Gg]{3,}) (\\w{1,8}) ([Gg]{3,}";
    assert "([Gg]{3,})  (\\w{1,8})  ([Gg]{3,}) (\\w{1,8}) ([Gg]{3,}" + ") (" == "([Gg]{3,})  (\\w{1,8})  ([Gg]{3,}) (\\w{1,8}) ([Gg]{3,}) (";
    assert "([Gg]{3,})  (\\w{1,8})  ([Gg]{3,}) (\\w{1,8}) ([Gg]{3,}) (" + "\\w{1,8}" == "([Gg]{3,})  (\\w{1,8})  ([Gg]{3,}) (\\w{1,8}) ([Gg]{3,}) (\\w{1,8}";
    assert "([Gg]{3,})  (\\w{1,8})  ([Gg]{3,}) (\\w{1,8}) ([Gg]{3,}) (\\w{1,8}" + ") (" == "([Gg]{3,})  (\\w{1,8})  ([Gg]{3,}) (\\w{1,8}) ([Gg]{3,}) (\\w{1,8}) (";
    assert "([Gg]{3,})  (\\w{1,8})  ([Gg]{3,}) (\\w{1,8}) ([Gg]{3,}) (\\w{1,8}) (" + "[Gg]{3,}" == "([Gg]{3,})  (\\w{1,8})  ([Gg]{3,}) (\\w{1,8}) ([Gg]{3,}) (\\w{1,8}) ([Gg]{3,}";
    assert "([Gg]{3,})  (\\w{1,8})  ([Gg]{3,}) (\\w{1,8}) ([Gg]{3,}) (\\w{1,8}) ([Gg]{3,}" + ")" == "([Gg]{3,})  (\\w{1,8})  ([Gg]{3,}) (\\w{1,8}) ([Gg]{3,}) (\\w{1,8}) ([Gg]{3,})";
  }

  /** Turning flanks on wraps the unflanked pattern in one word character on each side
      and changes nothing else. */
  lemma FlanksWrapCore(cfg: Config)
    ensures ForwardPattern(cfg.(includeFlanks := true)) == "\\w" + ForwardPattern(cfg.(includeFlanks := false)) + "\\w"
  {
    assert DeriveFlags(cfg.(includeFlanks := true)) == DeriveFlags(cfg.(includeFlanks := false));
  }

  /** Separators without a base letter are left as they are by the translation. */
  lemma TranslateSeparators()
    ensures Complement.Translate("(") == "("
    ensures Complement.Translate(")  (") == ")  ("
    ensures Complement.Translate(") (") == ") ("
    ensures Complement.Translate(")") == ")"
  {
  }

  /** Translation keeps the seven-slot layout: the reverse pattern is the forward layout
      with each tract and loop translated on its own. */
  lemma TranslateAssemble(t1: string, l1: string, t2: string, l2: string, t3: string, l3: string, t4: string)
    ensures Complement.Translate(Assemble(t1, l1, t2, l2, t3, l3, t4)) ==
      Assemble(Complement.Translate(t1), Complement.Translate(l1), Complement.Translate(t2),
               Complement.Translate(l2), Complement.Translate(t3), Complement.Translate(l3),
               Complement.Translate(t4))
  {
    TranslateSeparators();
    var a0 := "(";
    Complement.TranslateConcat(a0, t1);
    var a1 := a0 + t1;
    Complement.TranslateConcat(a1, ")  (");
    var a2 := a1 + ")  (";
    Complement.TranslateConcat(a2, l1);
    var a3 := a2 + l1;
    Complement.TranslateConcat(a3, ")  (");
    var a4 := a3 + ")  (";
    Complement.TranslateConcat(a4, t2);
    var a5 := a4 + t2;
    Complement.TranslateConcat(a5, ") (");
    var a6 := a5 + ") (";
    Complement.TranslateConcat(a6, l2);
    var a7 := a6 + l2;
    Complement.TranslateConcat(a7, ") (");
    var a8 := a7 + ") (";
    Complement.TranslateConcat(a8, t3);
    var a9 := a8 + t3;
    Complement.TranslateConcat(a9, ") (");
    var a10 := a9 + ") (";
    Complement.TranslateConcat(a10, l3);
    var a11 := a10 + l3;
    Complement.TranslateConcat(a11, ") (");
    var a12 := a11 + ") (";
    Complement.TranslateConcat(a12, t4);
    var a13 := a12 + t4;
    Complement.TranslateConcat(a13, ")");
    var a14 := a13 + ")";
  }

  /** The reverse-strand counterpart of the `-I 0` pattern searches for C-tracts with the
      same loops. */
  lemma ImperfectOffReversePattern()
    ensures ReversePattern(ImperfectOff) ==
      "([Cc]{3,})  (\\w{1,8})  ([Cc]{3,}) (\\w{1,8}) ([Cc]{3,}) (\\w{1,8}) ([Cc]{3,})"
  {
    MinimalGrammar(ImperfectOff);
    DefaultLoopText();
    var typ := AnyRun(Range(1, 8));
    TranslateAssemble(Perfect, typ, Perfect, typ, Perfect, typ, Perfect);
    TranslatedSlots();
    FourCTractsText();
  }

  /** The translations of a perfect tract and of the default loop. */
  lemma TranslatedSlots()
    ensures Complement.Translate("[Gg]{3,}") == "[Cc]{3,}"
    ensures Complement.Translate("\\w{1,8}") == "\\w{1,8}"
  {
    PerfectTractTranslated();
    DefaultLoopTranslated();
  }

  lemma PerfectTractTranslated()
    ensures Complement.Translate("[Gg]{3,}") == "[Cc]{3,}"
  {
    assert Complement.Translate("{3,}") == "{3,}";
    assert Complement.Translate("g]{3,}") == "c]{3,}";
  }

  lemma DefaultLoopTranslated()
    ensures Complement.Translate("\\w{1,8}") == "\\w{1,8}"
  {
    assert Complement.Translate("8}") == "8}";
    assert Complement.Translate("{1,8}") == "{1,8}";
  }

  /** The seven slots of `Assemble` joined, written out for C-tracts and the default loop. */
  lemma FourCTractsText()
    ensures Assemble("[Cc]{3,}", "\\w{1,8}", "[Cc]{3,}", "\\w{1,8}", "[Cc]{3,}", "\\w{1,8}", "[Cc]{3,}") ==
      "([Cc]{3,})  (\\w{1,8})  ([Cc]{3,}) (\\w{1,8}) ([Cc]{3,}) (\\w{1,8}) ([Cc]{3,})"
  {
    assert "(" + "[Cc]{3,}" == "([Cc]{3,}";
    assert "([Cc]{3,}" + ")  (" == "([Cc]{3,})  (";
    assert "([Cc]{3,})  (" + "\\w{1,8}" == "([Cc]{3,})  (\\w{1,8}";
    assert "([Cc]{3,})  (\\w{1,8}" + ")  (" == "([Cc]{3,})  (\\w{1,8})  (";
    assert "([Cc]{3,})  (\\w{1,8})  (" + "[Cc]{3,}" == "([Cc]{3,})  (\\w{1,8})  ([Cc]{3,}";
    assert "([Cc]{3,})  (\\w{1,8})  ([Cc]{3,}" + ") (" == "([Cc]{3,})  (\\w{1,8})  ([Cc]{3,}) (";
    assert "([Cc]{3,})  (\\w{1,8})  ([Cc]{3,}) (" + "\\w{1,8}" == "([Cc]{3,})  (\\w{1,8})  ([Cc]{3,}) (\\w{1,8}";
    assert "([Cc]{3,})  (\\w{1,8})  ([Cc]{3,}) (\\w{1,8}" + ") (" == "([Cc]{3,})  (\\w{1,8})  ([Cc]{3,}) (\\w{1,8}) (";
    assert "([Cc]{3,})  (\\w{1,8})  ([Cc]{3,}) (\\w{1,8}) (" + "[Cc]{3,}" == "([Cc]{3,})  (\\w{1,8})  ([Cc]{3,}) (\\w{1,8}) ([Cc]{3,}";
    assert "([Cc]{3,})  (\\w{1,8})  ([Cc]{3,}) (\\w{1,8}) ([Cc]{3,}" + ") (" == "([Cc]{3,})  (\\w{1,8})  ([Cc]{3,}) (\\w{1,8}) ([Cc]{3,}) (";
    assert "([Cc]{3,})  (\\w{1,8})  ([Cc]{3,}) (\\w{1,8}) ([Cc]{3,}) (" + "\\w{1,8}" == "([Cc]{3,})  (\\w{1,8})  ([Cc]{3,}) (\\w{1,8}) ([Cc]{3,}) (\\w{1,8}";
    assert "([Cc]{3,})  (\\w{1,8})  ([Cc]{3,}) (\\w{1,8}) ([Cc]{3,}) (\\w{1,8}" + ") (" == "([Cc]{3,})  (\\w{1,8})  ([Cc]{3,}) (\\w{1,8}) ([Cc]{3,}) (\\w{1,8}) (";
    assert "([Cc]{3,})  (\\w{1,8})  ([Cc]{3,}) (\\w{1,8}) ([Cc]{3,}) (\\w{1,8}) (" + "[Cc]{3,}" == "([Cc]{3,})  (\\w{1,8})  ([Cc]{3,}) (\\w{1,8}) ([Cc]{3,}) (\\w{1,8}) ([Cc]{3,}";
    assert "([Cc]{3,})  (\\w{1,8})  ([Cc]{3,}) (\\w{1,8}) ([Cc]{3,}) (\\w{1,8}) ([Cc]{3,}" + ")" == "([Cc]{3,})  (\\w{1,8})  ([Cc]{3,}) (\\w{1,8}) ([Cc]{3,}) (\\w{1,8}) ([Cc]{3,})";
  }

  /** The translation renames the named groups consistently: `G2GQ` becomes `C2CQ` and
      `extLoop` becomes `exaLoop` in definitions and conditional references alike, while
      `imp1` and `imp2` hold no translated letter. */
  lemma ReverseGroupNames()
    ensures Complement.Translate("G2GQ") == "C2CQ"
    ensures Complement.Translate("extLoop") == "exaLoop"
    ensures Complement.Translate("imp1") == "imp1" && Complement.Translate("imp2") == "imp2"
  {
    ShortGroupTranslated();
    ExtremeGroupTranslated();
    ImperfectGroupsTranslated();
  }

  lemma ShortGroupTranslated()
    ensures Complement.Translate("G2GQ") == "C2CQ"
  {
  }

  lemma ExtremeGroupTranslated()
    ensures Complement.Translate("extLoop") == "exaLoop"
  {
    assert Complement.Translate("oop") == "oop";
    assert Complement.Translate("tLoop") == "aLoop";
  }

  lemma ImperfectGroupsTranslated()
    ensures Complement.Translate("imp1") == "imp1" && Complement.Translate("imp2") == "imp2"
  {
  }
}

=== FILE: pipeline.dfy ===
/** The main loop of G4Catchall.py (lines 426-470): for every record, the forward
    matches and then the reverse matches are folded into the candidate list, and the
    list is finally sorted by record id, start, end and length. Reading the FASTA file
    and running the regex engine are outside the model: each record arrives with the
    matches the engine reports for it. */
module Pipeline {
  import opened Wrappers
  import Pattern
  import Merger
  import TableSort
  import Complement

  /** One record: its id (`chr`) and the matches of the forward and the reverse
      pattern, in the order `finditer` yields them. */
  datatype Record = Record(id: string, forward: seq<Merger.Match>, reverse: seq<Merger.Match>)

  /** What survives from one record to the next: the candidate list and the loop
      variable `m`, which stays bound after its loop ends (None before any match). */
  datatype Scan = Scan(rows: seq<Merger.Candidate>, lastMatch: Option<Merger.Match>)

  /** The output columns (line 470): record id, start, end and length. */
  const OutputColumns: seq<TableSort.Column> :=
    [TableSort.SeqIdCol, TableSort.StartCol, TableSort.EndCol, TableSort.LengthCol]

  /** The merge flag of lines 233-234 and the threshold read inside the loops. */
  function SettingsOf(cfg: Pattern.Config): Merger.Settings {
    Merger.Settings(!cfg.dontMergeOverlapping, cfg.threshold)
  }

  /** The value `m` holds after a `for m in ms` loop. */
  function LastOr(ms: seq<Merger.Match>, prev: Option<Merger.Match>): Option<Merger.Match> {
    if ms == [] then prev else Some(ms[|ms| - 1])
  }

  /** Lines 433-461 for one record. The reverse loop runs only when the reverse strand
      is searched and the length cap admits the leftover `m` of line 448 (the last match
      of any earlier loop); with a cap set and no match ever seen, `m` is unbound. */
  function ProcessRecord(cfg: Pattern.Config, st: Scan, r: Record): Result<Scan> {
    var s := SettingsOf(cfg);
    var rows :- Merger.Fold(st.rows, r.id, Merger.Plus, s, cfg.maxGQLength, r.forward);
    var m := LastOr(r.forward, st.lastMatch);
    if cfg.noReverse then Success(Scan(rows, m))
    else if cfg.maxGQLength != 0 && m.None? then Failure(UnboundMatch)
    else if cfg.maxGQLength != 0 && |m.value.text| > cfg.maxGQLength then Success(Scan(rows, m))
    else
      var rows' :- Merger.Fold(rows, r.id, Merger.Minus, s, 0, r.reverse);
      Success(Scan(rows', LastOr(r.reverse, m)))
  }

  /** The `while True` loop over the records of lines 426-468. */
  function ProcessAll(cfg: Pattern.Config, st: Scan, records: seq<Record>): Result<Scan>
    decreases |records|
  {
    if records == [] then Success(st)
    else
      var st' :- ProcessRecord(cfg, st, records[0]);
      ProcessAll(cfg, st', records[1..])
  }

  /** The rows the script prints, before formatting (lines 426-470). */
  function Run(cfg: Pattern.Config, records: seq<Record>): Result<seq<Merger.Candidate>> {
    var st :- ProcessAll(cfg, Scan([], None), records);
    Success(TableSort.SortTable(st.rows, OutputColumns))
  }

  /** The output holds exactly the collected candidates, ordered by id, start, end and
      length, with candidates equal on all four keys in the order they were found. */
  lemma RunOutputIsSortedCollection(cfg: Pattern.Config, records: seq<Record>)
    ensures Run(cfg, records).Success? <==> ProcessAll(cfg, Scan([], None), records).Success?
    ensures Run(cfg, records).Success? ==>
      var collected := ProcessAll(cfg, Scan([], None), records).value.rows;
      var out := Run(cfg, records).value;
      multiset(out) == multiset(collected) &&
      TableSort.LexSorted(out, OutputColumns) &&
      forall x :: TableSort.KeepAll(out, x, OutputColumns) == TableSort.KeepAll(collected, x, OutputColumns)
  {
    var st := ProcessAll(cfg, Scan([], None), records);
    if st.Success? {
      var collected := st.value.rows;
      TableSort.SortTablePermutes(collected, OutputColumns);
      TableSort.SortTableSorted(collected, OutputColumns);
      forall x
        ensures TableSort.KeepAll(Run(cfg, records).value, x, OutputColumns) == TableSort.KeepAll(collected, x, OutputColumns)
      {
        TableSort.SortTableStable(collected, x, OutputColumns);
      }
    }
  }

  /** With `-R` the reverse matches are never looked at. */
  lemma NoReverseIgnoresReverseMatches(cfg: Pattern.Config, st: Scan, r: Record)
    requires cfg.noReverse
    ensures ProcessRecord(cfg, st, r) == ProcessRecord(cfg, st, r.(reverse := []))
  {
  }

  /** With a length cap set, a record whose last forward match exceeds the cap has all
      its reverse matches skipped, however short they are (line 448). */
  lemma LongLastForwardSkipsReverse(cfg: Pattern.Config, st: Scan, r: Record)
    requires !cfg.noReverse && cfg.maxGQLength > 0
    requires r.forward != [] && |r.forward[|r.forward| - 1].text| > cfg.maxGQLength
    ensures ProcessRecord(cfg, st, r) == ProcessRecord(cfg, st, r.(reverse := []))
  {
  }

  /** With a length cap set, a first record without forward matches ends the run with
      the unbound-name error of line 448 as soon as the reverse strand is searched. */
  lemma CapWithoutMatchIsUnbound(cfg: Pattern.Config, r: Record)
    requires !cfg.noReverse && cfg.maxGQLength != 0 && r.forward == []
    ensures ProcessRecord(cfg, Scan([], None), r) == Failure(UnboundMatch)
  {
  }

  /** Without a length cap the reverse loop always runs, with the candidates the
      forward loop left. */
  lemma NoCapRunsReverse(cfg: Pattern.Config, st: Scan, r: Record)
    requires !cfg.noReverse && cfg.maxGQLength == 0
    requires ProcessRecord(cfg, st, r).Success?
    ensures var fwd := Merger.Fold(st.rows, r.id, Merger.Plus, SettingsOf(cfg), 0, r.forward);
      fwd.Success? &&
      Merger.Fold(fwd.value, r.id, Merger.Minus, SettingsOf(cfg), 0, r.reverse).Success? &&
      ProcessRecord(cfg, st, r).value.rows == Merger.Fold(fwd.value, r.id, Merger.Minus, SettingsOf(cfg), 0, r.reverse).value
  {
  }

  /** One record keeps every row consistent with its observed text: forward rows hold
      their text as the forming sequence, reverse rows its reverse complement. */
  lemma ProcessRecordKeepsRowsOk(cfg: Pattern.Config, st: Scan, r: Record)
    requires Merger.AllRowsOk(st.rows)
    requires ProcessRecord(cfg, st, r).Success?
    ensures Merger.AllRowsOk(ProcessRecord(cfg, st, r).value.rows)
  {
    var s := SettingsOf(cfg);
    Merger.FoldKeepsRowsOk(st.rows, r.id, Merger.Plus, s, cfg.maxGQLength, r.forward);
    var rows := Merger.Fold(st.rows, r.id, Merger.Plus, s, cfg.maxGQLength, r.forward).value;
    if Merger.Fold(rows, r.id, Merger.Minus, s, 0, r.reverse).Success? {
      Merger.FoldKeepsRowsOk(rows, r.id, Merger.Minus, s, 0, r.reverse);
    }
  }

  /** Every row collected over all records is consistent with its observed text. */
  lemma {:induction false} ProcessAllKeepsRowsOk(cfg: Pattern.Config, st: Scan, records: seq<Record>)
    requires Merger.AllRowsOk(st.rows)
    requires ProcessAll(cfg, st, records).Success?
    ensures Merger.AllRowsOk(ProcessAll(cfg, st, records).value.rows)
    decreases |records|
  {
    if records != [] {
      ProcessRecordKeepsRowsOk(cfg, st, records[0]);
      ProcessAllKeepsRowsOk(cfg, ProcessRecord(cfg, st, records[0]).value, records[1..]);
    }
  }

  /** Every printed row is consistent with its observed text: its score is the G4Hunter
      score of that text, and its forming sequence is the text or its reverse complement
      according to its strand. */
  lemma RunRowsOk(cfg: Pattern.Config, records: seq<Record>)
    requires Run(cfg, records).Success?
    ensures Merger.AllRowsOk(Run(cfg, records).value)
  {
    var collected := ProcessAll(cfg, Scan([], None), records).value.rows;
    ProcessAllKeepsRowsOk(cfg, Scan([], None), records);
    var out := Run(cfg, records).value;
    TableSort.SortTablePermutes(collected, OutputColumns);
    forall i | 0 <= i < |out|
      ensures Merger.RowOk(out[i])
    {
      assert out[i] in multiset(collected);
    }
  }

  /** The reverse strand escapes the length cap even with merging off: line 448 tests
      only the leftover forward match, so a five-letter reverse match is kept under a
      cap of 3. */
  lemma ReverseExceedsCap(cfg: Pattern.Config)
    requires !cfg.noReverse && cfg.dontMergeOverlapping && cfg.threshold.None? && cfg.maxGQLength == 3
    ensures var r := ProcessRecord(cfg, Scan([], None),
        Record("chr", [Merger.Match(0, 3, "GGG")], [Merger.Match(0, 5, "CCCCC")]));
      r.Success? && |r.value.rows| == 2 && |r.value.rows[1].observed| == 5 > cfg.maxGQLength
  {
    var s := SettingsOf(cfg);
    var fwd := [Merger.Match(0, 3, "GGG")];
    var rev := [Merger.Match(0, 5, "CCCCC")];
    assert fwd[1..] == [] && rev[1..] == [];
    assert Complement.InTable("CCCCC");
    var rows := Merger.Step([], "chr", Merger.Plus, s, fwd[0]).value;
    assert Merger.Fold([], "chr", Merger.Plus, s, 3, fwd) == Merger.Step([], "chr", Merger.Plus, s, fwd[0]);
    assert |rows| == 1;
    assert Merger.Fold(rows, "chr", Merger.Minus, s, 0, rev) == Merger.Step(rows, "chr", Merger.Minus, s, rev[0]);
  }

  /** Every match of every record is as long as its span. */
  predicate RecordsAreSpans(records: seq<Record>) {
    forall i :: 0 <= i < |records| ==>
      Merger.TextsAreSpans(records[i].forward) && Merger.TextsAreSpans(records[i].reverse)
  }

  /** One record keeps every row's length equal to its end minus its start. */
  lemma ProcessRecordKeepsSpans(cfg: Pattern.Config, st: Scan, r: Record)
    requires Merger.AllSpanOk(st.rows)
    requires Merger.TextsAreSpans(r.forward) && Merger.TextsAreSpans(r.reverse)
    requires ProcessRecord(cfg, st, r).Success?
    ensures Merger.AllSpanOk(ProcessRecord(cfg, st, r).value.rows)
  {
    var s := SettingsOf(cfg);
    Merger.FoldKeepsSpans(st.rows, r.id, Merger.Plus, s, cfg.maxGQLength, r.forward);
    var rows := Merger.Fold(st.rows, r.id, Merger.Plus, s, cfg.maxGQLength, r.forward).value;
    if Merger.Fold(rows, r.id, Merger.Minus, s, 0, r.reverse).Success? {
      Merger.FoldKeepsSpans(rows, r.id, Merger.Minus, s, 0, r.reverse);
    }
  }

  /** Every row collected over all records has length equal to end minus start. */
  lemma {:induction false} ProcessAllKeepsSpans(cfg: Pattern.Config, st: Scan, records: seq<Record>)
    requires Merger.AllSpanOk(st.rows) && RecordsAreSpans(records)
    requires ProcessAll(cfg, st, records).Success?
    ensures Merger.AllSpanOk(ProcessAll(cfg, st, records).value.rows)
    decreases |records|
  {
    if records != [] {
      ProcessRecordKeepsSpans(cfg, st, records[0]);
      assert RecordsAreSpans(records[1..]);
      ProcessAllKeepsSpans(cfg, ProcessRecord(cfg, st, records[0]).value, records[1..]);
    }
  }

  /** Every printed row's length column equals its end minus its start. */
  lemma RunSpans(cfg: Pattern.Config, records: seq<Record>)
    requires RecordsAreSpans(records)
    requires Run(cfg, records).Success?
    ensures Merger.AllSpanOk(Run(cfg, records).value)
  {
    var collected := ProcessAll(cfg, Scan([], None), records).value.rows;
    ProcessAllKeepsSpans(cfg, Scan([], None), records);
    var out := Run(cfg, records).value;
    TableSort.SortTablePermutes(collected, OutputColumns);
    forall i | 0 <= i < |out|
      ensures Merger.SpanOk(out[i])
    {
      assert out[i] in multiset(collected);
    }
  }
}

=== FILE: sort.dfy ===
/** `sort_table` of G4Catchall.py (lines 401-410): a table is sorted by several
    columns by sorting it once per column, from the last column to the first, with
    Python's stable `sorted`. The stable single-column sort is modelled as an
    insertion sort that places each row after every row whose key is not larger. */
module TableSort {
  import Merger

  /** The columns the script sorts by: `(0, 1, 2, 3)` of an output row. */
  datatype Column = SeqIdCol | StartCol | EndCol | LengthCol

  type Row = Merger.Candidate

  /** Python 2 string comparison: lexicographic by character code. */
  predicate StrLe(a: string, b: string)
    decreases |a|
  {
    a == [] || (b != [] && (a[0] < b[0] || (a[0] == b[0] && StrLe(a[1..], b[1..]))))
  }

  lemma {:induction false} StrLeTotal(a: string, b: string)
    ensures StrLe(a, b) || StrLe(b, a)
    decreases |a|
  {
    if a != [] && b != [] && a[0] == b[0] {
      StrLeTotal(a[1..], b[1..]);
    }
  }

  lemma {:induction false} StrLeTrans(a: string, b: string, c: string)
    requires StrLe(a, b) && StrLe(b, c)
    ensures StrLe(a, c)
    decreases |a|
  {
    if a != [] && b != [] && c != [] && a[0] == b[0] == c[0] {
      StrLeTrans(a[1..], b[1..], c[1..]);
    }
  }

  lemma {:induction false} StrLeAntisym(a: string, b: string)
    requires StrLe(a, b) && StrLe(b, a)
    ensures a == b
    decreases |a|
  {
    if a != [] && b != [] {
      StrLeAntisym(a[1..], b[1..]);
      assert a == [a[0]] + a[1..] && b == [b[0]] + b[1..];
    }
  }

  /** `operator.itemgetter(col)` compared with `<=`. */
  predicate KeyLe(col: Column, x: Row, y: Row) {
    match col
    case SeqIdCol => StrLe(x.seqId, y.seqId)
    case StartCol => x.start <= y.start
    case EndCol => x.end <= y.end
    case LengthCol => x.length <= y.length
  }

  /** Equal keys in column `col`. */
  predicate SameKey(col: Column, x: Row, y: Row) {
    match col
    case SeqIdCol => x.seqId == y.seqId
    case StartCol => x.start == y.start
    case EndCol => x.end == y.end
    case LengthCol => x.length == y.length
  }

  /** `KeyLe` is a total preorder whose equivalence is `SameKey`. */
  lemma KeyLeTotal(col: Column, x: Row, y: Row)
    ensures KeyLe(col, x, y) || KeyLe(col, y, x)
    ensures KeyLe(col, x, y) && KeyLe(col, y, x) <==> SameKey(col, x, y)
  {
    if col == SeqIdCol {
      StrLeTotal(x.seqId, y.seqId);
      if StrLe(x.seqId, y.seqId) && StrLe(y.seqId, x.seqId) {
        StrLeAntisym(x.seqId, y.seqId);
      }
      if x.seqId == y.seqId {
        StrLeTotal(x.seqId, x.seqId);
      }
    }
  }

  lemma KeyLeTrans(col: Column, x: Row, y: Row, z: Row)
    requires KeyLe(col, x, y) && KeyLe(col, y, z)
    ensures KeyLe(col, x, z)
  {
    if col == SeqIdCol {
      StrLeTrans(x.seqId, y.seqId, z.seqId);
    }
  }

  predicate SortedBy(s: seq<Row>, col: Column) {
    forall i, j :: 0 <= i < j < |s| ==> KeyLe(col, s[i], s[j])
  }

  /** Insert `x` after every row whose key is at most its own. */
  function Insert(s: seq<Row>, x: Row, col: Column): seq<Row> {
    if s == [] then [x]
    else if KeyLe(col, s[|s| - 1], x) then s + [x]
    else Insert(s[..|s| - 1], x, col) + [s[|s| - 1]]
  }

  /** One stable sort of the table by a single column (line 409). */
  function SortBy(t: seq<Row>, col: Column): seq<Row> {
    if t == [] then [] else Insert(SortBy(t[..|t| - 1], col), t[|t| - 1], col)
  }

  lemma {:induction false} InsertPermutes(s: seq<Row>, x: Row, col: Column)
    ensures multiset(Insert(s, x, col)) == multiset(s) + multiset{x}
  {
    if s != [] && !KeyLe(col, s[|s| - 1], x) {
      InsertPermutes(s[..|s| - 1], x, col);
      assert s == s[..|s| - 1] + [s[|s| - 1]];
    }
  }

  /** The single-column sort returns a permutation of its input. */
  lemma {:induction false} SortByPermutes(t: seq<Row>, col: Column)
    ensures multiset(SortBy(t, col)) == multiset(t)
  {
    if t != [] {
      SortByPermutes(t[..|t| - 1], col);
      InsertPermutes(SortBy(t[..|t| - 1], col), t[|t| - 1], col);
      assert t == t[..|t| - 1] + [t[|t| - 1]];
    }
  }

  lemma {:induction false} InsertSorted(s: seq<Row>, x: Row, col: Column)
    requires SortedBy(s, col)
    ensures SortedBy(Insert(s, x, col), col)
  {
    var r := Insert(s, x, col);
    if s == [] {
    } else if KeyLe(col, s[|s| - 1], x) {
      forall i, j | 0 <= i < j < |r|
        ensures KeyLe(col, r[i], r[j])
      {
        if j == |s| && i < |s| - 1 {
          KeyLeTrans(col, s[i], s[|s| - 1], x);
        }
      }
    } else {
      var init := s[..|s| - 1];
      var last := s[|s| - 1];
      KeyLeTotal(col, last, x);
      InsertSorted(init, x, col);
      var r0 := Insert(init, x, col);
      InsertPermutes(init, x, col);
      forall i, j | 0 <= i < j < |r|
        ensures KeyLe(col, r[i], r[j])
      {
        if j == |r| - 1 {
          assert r[i] in multiset(r0);
          if r[i] != x {
            assert r[i] in init;
          }
        }
      }
    }
  }

  lemma {:induction false} SortBySorted(t: seq<Row>, col: Column)
    ensures SortedBy(SortBy(t, col), col)
  {
    if t != [] {
      SortBySorted(t[..|t| - 1], col);
      InsertSorted(SortBy(t[..|t| - 1], col), t[|t| - 1], col);
    }
  }

  /** The rows of `s` whose key in column `col` equals that of `x`, in their order. */
  function Keep(s: seq<Row>, x: Row, col: Column): seq<Row> {
    if s == [] then []
    else Keep(s[..|s| - 1], x, col) + (if SameKey(col, x, s[|s| - 1]) then [s[|s| - 1]] else [])
  }

  lemma {:induction false} KeepAppend(s: seq<Row>, y: Row, x: Row, col: Column)
    ensures Keep(s + [y], x, col) == Keep(s, x, col) + (if SameKey(col, x, y) then [y] else [])
  {
    assert (s + [y])[..|s|] == s;
  }

  /** Two rows sharing a key with a third share it with each other, in either order. */
  lemma SameKeyShared(col: Column, y: Row, x: Row, z: Row)
    requires SameKey(col, y, x) && SameKey(col, y, z)
    ensures KeyLe(col, z, x)
  {
    if col == SeqIdCol {
      StrLeTotal(z.seqId, x.seqId);
    }
  }

  /** Insertion puts `x` behind every row with the same key. */
  lemma {:induction false} InsertKeep(s: seq<Row>, x: Row, y: Row, col: Column)
    ensures Keep(Insert(s, x, col), y, col) == Keep(s, y, col) + (if SameKey(col, y, x) then [x] else [])
  {
    if s == [] {
      KeepAppend([], x, y, col);
    } else if KeyLe(col, s[|s| - 1], x) {
      KeepAppend(s, x, y, col);
    } else {
      var init, last := s[..|s| - 1], s[|s| - 1];
      var r0 := Insert(init, x, col);
      assert Insert(s, x, col) == r0 + [last];
      InsertKeep(init, x, y, col);
      KeepAppend(r0, last, y, col);
      var tail := if SameKey(col, y, last) then [last] else [];
      var added := if SameKey(col, y, x) then [x] else [];
      assert Keep(s, y, col) == Keep(init, y, col) + tail;
      if SameKey(col, y, x) && SameKey(col, y, last) {
        SameKeyShared(col, y, x, last);
      }
      assert tail == [] || added == [];
      assert Keep(init, y, col) + added + tail == Keep(init, y, col) + tail + added;
    }
  }

  /** The single-column sort is stable: the rows sharing a key keep their order. */
  lemma {:induction false} SortByStable(t: seq<Row>, x: Row, col: Column)
    ensures Keep(SortBy(t, col), x, col) == Keep(t, x, col)
  {
    if t != [] {
      var init, last := t[..|t| - 1], t[|t| - 1];
      var sorted := SortBy(init, col);
      assert SortBy(t, col) == Insert(sorted, last, col);
      SortByStable(init, x, col);
      InsertKeep(sorted, last, x, col);
    }
  }

  lemma {:induction false} KeepIndex(s: seq<Row>, x: Row, col: Column, i: int)
    requires 0 <= i < |s| && SameKey(col, x, s[i])
    ensures exists a :: 0 <= a < |Keep(s, x, col)| && Keep(s, x, col)[a] == s[i]
  {
    var init := s[..|s| - 1];
    if i < |s| - 1 {
      KeepIndex(init, x, col, i);
      var a :| 0 <= a < |Keep(init, x, col)| && Keep(init, x, col)[a] == init[i];
      assert Keep(s, x, col)[a] == s[i];
    } else {
      assert Keep(s, x, col)[|Keep(init, x, col)|] == s[i];
    }
  }

  /** Two rows that share the key of `x` appear in `Keep` in the order they have in `s`. */
  lemma {:induction false} KeepPositions(s: seq<Row>, x: Row, col: Column, i: int, j: int)
    requires 0 <= i < j < |s| && SameKey(col, x, s[i]) && SameKey(col, x, s[j])
    ensures exists a, b :: 0 <= a < b < |Keep(s, x, col)| && Keep(s, x, col)[a] == s[i] && Keep(s, x, col)[b] == s[j]
  {
    var init := s[..|s| - 1];
    var k := Keep(s, x, col);
    var k0 := Keep(init, x, col);
    if j < |s| - 1 {
      KeepPositions(init, x, col, i, j);
      var a, b :| 0 <= a < b < |k0| && k0[a] == init[i] && k0[b] == init[j];
      assert k[a] == s[i] && k[b] == s[j];
    } else {
      KeepIndex(init, x, col, i);
      var a :| 0 <= a < |k0| && k0[a] == init[i];
      assert k[a] == s[i] && k[|k0|] == s[j];
    }
  }

  /** Every row `Keep` returns comes from its input. */
  lemma {:induction false} KeepSubset(s: seq<Row>, x: Row, col: Column, a: int)
    requires 0 <= a < |Keep(s, x, col)|
    ensures exists i :: 0 <= i < |s| && s[i] == Keep(s, x, col)[a]
  {
    var init := s[..|s| - 1];
    if a < |Keep(init, x, col)| {
      KeepSubset(init, x, col, a);
      var i :| 0 <= i < |init| && init[i] == Keep(init, x, col)[a];
      assert s[i] == Keep(s, x, col)[a];
    } else {
      assert s[|s| - 1] == Keep(s, x, col)[a];
    }
  }

  /** `LexLe(cols, x, y)`: `x` may precede `y` when rows are ordered by `cols[0]`, ties
      broken by `cols[1]`, and so on. */
  predicate LexLe(cols: seq<Column>, x: Row, y: Row)
    decreases |cols|
  {
    cols == [] || (KeyLe(cols[0], x, y) && (SameKey(cols[0], x, y) ==> LexLe(cols[1..], x, y)))
  }

  predicate LexSorted(s: seq<Row>, cols: seq<Column>) {
    forall i, j :: 0 <= i < j < |s| ==> LexLe(cols, s[i], s[j])
  }

  /** Taking the rows with one key keeps a table ordered. */
  lemma {:induction false} KeepLexSorted(s: seq<Row>, x: Row, col: Column, cols: seq<Column>)
    requires LexSorted(s, cols)
    ensures LexSorted(Keep(s, x, col), cols)
  {
    if s != [] {
      var init := s[..|s| - 1];
      var k0 := Keep(init, x, col);
      var k := Keep(s, x, col);
      KeepLexSorted(init, x, col, cols);
      forall a, b | 0 <= a < b < |k|
        ensures LexLe(cols, k[a], k[b])
      {
        if b >= |k0| {
          KeepSubset(init, x, col, a);
          var i :| 0 <= i < |init| && init[i] == k0[a];
          assert k[a] == s[i] && k[b] == s[|s| - 1];
        } else {
          assert k[a] == k0[a] && k[b] == k0[b];
        }
      }
    }
  }

  /** `sort_table(table, cols)`: the loop of line 408 sorts by the last column first, so
      the sort applied last, and deciding the order, is the one by the first column. */
  function SortTable(t: seq<Row>, cols: seq<Column>): seq<Row> {
    if cols == [] then t else SortBy(SortTable(t, cols[1..]), cols[0])
  }

  /** The table comes back with the same rows, each as often as before. */
  lemma {:induction false} SortTablePermutes(t: seq<Row>, cols: seq<Column>)
    ensures multiset(SortTable(t, cols)) == multiset(t)
  {
    if cols != [] {
      SortTablePermutes(t, cols[1..]);
      SortByPermutes(SortTable(t, cols[1..]), cols[0]);
    }
  }

  /** The table comes back ordered by its columns, lexicographically. */
  lemma {:induction false} SortTableSorted(t: seq<Row>, cols: seq<Column>)
    ensures LexSorted(SortTable(t, cols), cols)
  {
    if cols != [] {
      var c, rest := cols[0], cols[1..];
      var inner := SortTable(t, rest);
      var r := SortBy(inner, c);
      SortTableSorted(t, rest);
      SortBySorted(inner, c);
      forall i, j | 0 <= i < j < |r|
        ensures LexLe(cols, r[i], r[j])
      {
        if SameKey(c, r[i], r[j]) {
          var x := r[i];
          SameKeyRefl(c, x);
          KeepPositions(r, x, c, i, j);
          SortByStable(inner, x, c);
          KeepLexSorted(inner, x, c, rest);
          var k := Keep(r, x, c);
          var a, b :| 0 <= a < b < |k| && k[a] == r[i] && k[b] == r[j];
          assert LexLe(rest, k[a], k[b]);
        }
      }
    }
  }

  lemma SameKeyRefl(col: Column, x: Row)
    ensures SameKey(col, x, x)
  {
  }

  /** `SameOn(cols, x, y)`: `x` and `y` agree on every column of `cols`. */
  predicate SameOn(cols: seq<Column>, x: Row, y: Row)
    decreases |cols|
  {
    cols == [] || (SameKey(cols[0], x, y) && SameOn(cols[1..], x, y))
  }

  /** The rows of `s` that agree with `x` on every column of `cols`, in their order. */
  function KeepAll(s: seq<Row>, x: Row, cols: seq<Column>): seq<Row> {
    if s == [] then []
    else KeepAll(s[..|s| - 1], x, cols) + (if SameOn(cols, x, s[|s| - 1]) then [s[|s| - 1]] else [])
  }

  lemma {:induction false} KeepAllAppend(s: seq<Row>, y: Row, x: Row, cols: seq<Column>)
    ensures KeepAll(s + [y], x, cols) == KeepAll(s, x, cols) + (if SameOn(cols, x, y) then [y] else [])
  {
    assert (s + [y])[..|s|] == s;
  }

  /** Filtering on the first column and then on the rest is filtering on all columns. */
  lemma {:induction false} KeepThenKeepAll(s: seq<Row>, x: Row, cols: seq<Column>)
    requires cols != []
    ensures KeepAll(Keep(s, x, cols[0]), x, cols[1..]) == KeepAll(s, x, cols)
  {
    if s != [] {
      var init, last := s[..|s| - 1], s[|s| - 1];
      KeepThenKeepAll(init, x, cols);
      assert SameOn(cols, x, last) <==> SameKey(cols[0], x, last) && SameOn(cols[1..], x, last);
      if SameKey(cols[0], x, last) {
        assert Keep(s, x, cols[0]) == Keep(init, x, cols[0]) + [last];
        KeepAllAppend(Keep(init, x, cols[0]), last, x, cols[1..]);
      } else {
        assert Keep(s, x, cols[0]) == Keep(init, x, cols[0]);
      }
    }
  }

  /** Filtering on the rest of the columns and then on the first is filtering on all. */
  lemma {:induction false} KeepAllThenKeep(s: seq<Row>, x: Row, cols: seq<Column>)
    requires cols != []
    ensures Keep(KeepAll(s, x, cols[1..]), x, cols[0]) == KeepAll(s, x, cols)
  {
    if s != [] {
      var init, last := s[..|s| - 1], s[|s| - 1];
      KeepAllThenKeep(init, x, cols);
      assert SameOn(cols, x, last) <==> SameKey(cols[0], x, last) && SameOn(cols[1..], x, last);
      if SameOn(cols[1..], x, last) {
        assert KeepAll(s, x, cols[1..]) == KeepAll(init, x, cols[1..]) + [last];
        KeepAppend(KeepAll(init, x, cols[1..]), last, x, cols[0]);
      } else {
        assert KeepAll(s, x, cols[1..]) == KeepAll(init, x, cols[1..]);
      }
    }
  }

  /** The sort is stable: rows that agree on every sort column keep their order. */
  lemma {:induction false} SortTableStable(t: seq<Row>, x: Row, cols: seq<Column>)
    ensures KeepAll(SortTable(t, cols), x, cols) == KeepAll(t, x, cols)
  {
    if cols == [] {
      KeepAllEverything(t, x);
    } else {
      var c, rest := cols[0], cols[1..];
      var inner := SortTable(t, rest);
      var r := SortBy(inner, c);
      KeepThenKeepAll(r, x, cols);
      SortByStable(inner, x, c);
      KeepThenKeepAll(inner, x, cols);
      KeepAllThenKeep(inner, x, cols);
      SortTableStable(t, x, rest);
      KeepAllThenKeep(t, x, cols);
    }
  }

  lemma {:induction false} KeepAllEverything(s: seq<Row>, x: Row)
    ensures KeepAll(s, x, []) == s
  {
    if s != [] {
      KeepAllEverything(s[..|s| - 1], x);
      assert s == s[..|s| - 1] + [s[|s| - 1]];
    }
  }
}

=== FILE: wrappers.dfy ===
/** Failure-compatible result type and the run-time errors the script can raise
    on the paths this model covers. */
module Wrappers {

  datatype Option<+T> = None | Some(value: T)

  /** Exceptions raised by the script that end the whole run. */
  datatype Error =
    | KeyError(base: char)   // a base outside the reverse-complement table
    | ZeroDivision           // G4HScore called on an empty string
    | UnboundMatch           // the reverse-strand length check reads `m` before any loop bound it

  datatype Result<+R> = Success(value: R) | Failure(error: Error) {

    predicate IsFailure() {
      Failure?
    }

    function PropagateFailure<U>(): Result<U>
      requires Failure?
    {
      Failure(error)
    }

    function Extract(): R
      requires Success?
    {
      value
    }
  }
}
